=== FILE: README.md ===
# Oak query object: a Dafny model

This project models the core of Apache Jackrabbit Oak's `QueryImpl`, the
object a parsed JCR-SQL2 / XPath query becomes. It covers:

- selector registration during `init`, and the lookups by name;
- cost-based index selection for one selector (`getBestSelectorExecutionPlan`);
- the decision whether the chosen index already delivers the requested
  `ORDER BY` (`canSortByIndex`);
- greedy join ordering (`prepare` / `buildJoin`);
- the `RowIterator` state machine that feeds the result pipeline;
- the size bookkeeping of `getRows` / `getSize`, with `saturatedAdd`;
- the OR-to-UNION rewrite helpers (`oak2660CostOverhead`,
  `recomposeStatement`, `optimise`, `copyOf`).

Java doubles become `Cost = Finite(real) | Infinity`. Java `long` is
`Longs.Long`, a subtype of `int` covering the 64-bit range, with the wrapping
`+` written out as `WrapSum`. Exceptions become `Failure(QueryError)`, and
Java `null` becomes `Option`. Every collaborator the query calls
(index providers, join conditions, the source's row cursor, the AST
visitor) is a parameter: a list of data, or a function value.

Modules, in dependency order:

- `Wrappers`: `Option` and `Result`.
- `Longs`: the long range, `WrapSum` and `SaturatedAdd`.
- `Costs`: the cost order.
- `Ast`: operands, orderings, columns, constraints, sources and errors.
- `Selectors`: the registry, and the selector/column/bind-variable lookups.
- `IndexSelection`: index selection.
- `SortPushDown`: `canSortByIndex`.
- `JoinPlanner`: the greedy join planner.
- `RowIterator`: the row iterator.
- `ResultSize`: the size computations.
- `UnionRewrite`: the OR/UNION helpers.
- `QueryModel`: the query life cycle.

All source paths below are under
`oak-core/src/main/java/org/apache/jackrabbit/oak/query/`.

## Model

| member | source | states |
|---|---|---|
| Longs.SaturatedAdd | oak-core/src/main/java/org/apache/jackrabbit/oak/query/QueryImpl.java:1194-1199 | The exact sum clamped into the long range: `LONG_MAX` on overflow, `LONG_MIN` on underflow, the sum otherwise |
| Longs.WrapSum | oak-core/src/main/java/org/apache/jackrabbit/oak/query/QueryImpl.java:1012-1016 | Java's `long` addition: congruent to the exact sum modulo 2^64, and equal to it exactly when the sum is in range |
| Longs.SaturatedAddBoundaries | oak-core/src/main/java/org/apache/jackrabbit/oak/query/QueryImpl.java:1186-1199 | `MAX+1` saturates to MAX and `MIN-1` to MIN, where plain long addition wraps `MAX+1` to MIN |
| Longs.SaturatedAddVersusWrap | oak-core/src/main/java/org/apache/jackrabbit/oak/query/QueryImpl.java:1186-1199 | Saturating and wrapping addition agree exactly when the exact sum fits in a long |
| Longs.SaturatedAddIsClosest | oak-core/src/main/java/org/apache/jackrabbit/oak/query/QueryImpl.java:1186-1199 | No long is closer to the exact sum than the saturated result |
| Costs.LessIsStrictTotalOrder | oak-core/src/main/java/org/apache/jackrabbit/oak/query/QueryImpl.java:964 | The cost comparison used everywhere (with +infinity as the top) is irreflexive, asymmetric, transitive and total |
| Selectors.Register | oak-core/src/main/java/org/apache/jackrabbit/oak/query/QueryImpl.java:371-379 | Registering selectors in visit order succeeds iff all names are distinct. On success the name-to-index map sends each name to its position in the list. On failure it reports the first name that was already registered |
| Selectors.GetSelectorIndex | oak-core/src/main/java/org/apache/jackrabbit/oak/query/QueryImpl.java:899-906 | Succeeds iff the name is registered, with an index at which the list holds that name; otherwise "Unknown selector" for that name |
| Selectors.RegisterThenLookup | oak-core/src/main/java/org/apache/jackrabbit/oak/query/QueryImpl.java:371-379 | After registering distinct names, looking up the i-th name gives i, and every other name is unknown |
| Selectors.GetColumnIndex | oak-core/src/main/java/org/apache/jackrabbit/oak/query/QueryImpl.java:913-922 | Returns the first column whose non-null column name equals the requested name, or -1 iff there is no such column |
| Selectors.DistinctColumns | oak-core/src/main/java/org/apache/jackrabbit/oak/query/QueryImpl.java:435-443 | One flag per column; a column counts toward DISTINCT iff its property is not `jcr:score` |
| Selectors.DeclareBindVariables | oak-core/src/main/java/org/apache/jackrabbit/oak/query/QueryImpl.java:226-230 | Every referenced bind variable is in the map with a null value; other entries are kept unchanged |
| Selectors.GetBindVariableValue | oak-core/src/main/java/org/apache/jackrabbit/oak/query/QueryImpl.java:924-930 | Succeeds iff the name is present with a non-null value, and returns that value; otherwise "Bind variable value not set" |
| Selectors.BindValue | oak-core/src/main/java/org/apache/jackrabbit/oak/query/QueryImpl.java:466-468 | The name is bound to the given value (null included), and every other entry is kept |
| Selectors.BindThenGet | oak-core/src/main/java/org/apache/jackrabbit/oak/query/QueryImpl.java:466-468 | Binding and then reading gives the value back, and other names are unaffected. Binding null, or a re-declaration by `init`, makes reading fail |
| IndexSelection.SortByMinimumCost | oak-core/src/main/java/org/apache/jackrabbit/oak/query/QueryImpl.java:134-139 | The result is a permutation of the indexes, ordered by minimum cost |
| IndexSelection.MaxEntryCount | oak-core/src/main/java/org/apache/jackrabbit/oak/query/QueryImpl.java:1010-1018 | The limit when offset ≤ 0. `LONG_MAX` when the wrapped sum `offset + limit` is negative. Otherwise the sum |
| IndexSelection.MaxEntryCountSaturates | oak-core/src/main/java/org/apache/jackrabbit/oak/query/QueryImpl.java:1010-1018 | For a non-negative limit and positive offset, the overflow check computes exactly the saturated sum |
| IndexSelection.PlanCost | oak-core/src/main/java/org/apache/jackrabbit/oak/query/QueryImpl.java:1024-1025 | A plan costs its execution cost plus the per-entry cost times its estimated entry count, or times the cap when the cap is smaller |
| IndexSelection.PlanCostMonotone | oak-core/src/main/java/org/apache/jackrabbit/oak/query/QueryImpl.java:1024-1025 | With a non-negative per-entry cost, a larger cap never makes a plan cheaper, and the capped cost never exceeds the cost of reading every estimated entry |
| IndexSelection.BestPlan | oak-core/src/main/java/org/apache/jackrabbit/oak/query/QueryImpl.java:1019-1033 | Picks the first plan of strictly minimal cost (execution cost + capped entry count × cost per entry). With no plans, the cost is infinite and there is no plan |
| IndexSelection.IndexCost | oak-core/src/main/java/org/apache/jackrabbit/oak/query/QueryImpl.java:1019-1036 | A simple index costs what it reports. An advanced index costs its cheapest plan: no more than any plan, equal to one of them, and infinite iff it has no plans |
| IndexSelection.Scan | oak-core/src/main/java/org/apache/jackrabbit/oak/query/QueryImpl.java:971-1048 | The index loop keeps the first strictly cheapest index examined. It stops only at an index whose minimum cost exceeds the best cost so far (the converse is `ScanStopsAtFirstCostlier`) |
| IndexSelection.ScanStopsAtFirstCostlier | oak-core/src/main/java/org/apache/jackrabbit/oak/query/QueryImpl.java:971-978 | The loop passes an index only when its minimum cost is no more than the running best (the best of the costs examined so far, replaced only by a strictly cheaper one), and ends holding that running best. With `Scan`'s stop clause, it stops at the first index whose minimum cost exceeds the best so far, and not before |
| IndexSelection.ScanIsOptimal | oak-core/src/main/java/org/apache/jackrabbit/oak/query/QueryImpl.java:967-977 | If each index's minimum cost is a lower bound on its cost, the early stop loses nothing: the result is no dearer than any index |
| IndexSelection.BestSelectorPlan | oak-core/src/main/java/org/apache/jackrabbit/oak/query/QueryImpl.java:956-1063 | Traversal is chosen iff it is enabled and either strictly cheaper than the best index or the best index cost is still infinite. So with traversal enabled an index is always chosen, costing no more than traversal. No index means traversal is disabled and the cost is infinite. Traversal carries its own cost and no plan. A provided index is one of the inputs, with finite cost and its own plan. It is exactly the index the loop kept over the indexes sorted by minimum cost, at the loop's best cost |
| IndexSelection.BestSelectorPlanIsOptimal | oak-core/src/main/java/org/apache/jackrabbit/oak/query/QueryImpl.java:956-1063 | Under the same lower-bound assumption, the chosen cost is no more than any index's cost |
| IndexSelection.CollectOrderSource | oak-core/src/main/java/org/apache/jackrabbit/oak/query/QueryImpl.java:986-1005 | Every requested entry translates an ordering on this selector that comes before any computed operand (the loop breaks at the first one and skips other selectors) |
| IndexSelection.CollectOrderAll | oak-core/src/main/java/org/apache/jackrabbit/oak/query/QueryImpl.java:986-1005 | When every ordering is a property of this selector, the entries are exactly those orderings, in order, with their direction |
| IndexSelection.CollectOrderComplete | oak-core/src/main/java/org/apache/jackrabbit/oak/query/QueryImpl.java:986-1005 | Conversely, every ordering on this selector that comes before any computed operand is requested, also when orderings of other selectors are mixed in |
| IndexSelection.CollectOrderAppend | oak-core/src/main/java/org/apache/jackrabbit/oak/query/QueryImpl.java:986-1005 | A prefix of property-value orderings contributes its own entries, followed by those of the rest |
| IndexSelection.CollectOrderSingle | oak-core/src/main/java/org/apache/jackrabbit/oak/query/QueryImpl.java:986-1005 | A single ordering gives its entry iff it is a property of this selector; a computed operand ends the list whatever follows |
| IndexSelection.RequestedSortOrder | oak-core/src/main/java/org/apache/jackrabbit/oak/query/QueryImpl.java:984-1008 | No orderings give no sort order, and an empty translation becomes null. A non-null order is the translated list. Null with orderings present means every ordering on this selector sits behind a computed operand. Orderings that are all property values of this selector are all requested |
| SortPushDown.CanSortByIndex | oak-core/src/main/java/org/apache/jackrabbit/oak/query/QueryImpl.java:570-606 | True iff: there are orderings and exactly one selector; its plan has a sort order of the same length; and every entry names the ordering's property in the ordering's direction |
| SortPushDown.RequestedOrderIsSortable | oak-core/src/main/java/org/apache/jackrabbit/oak/query/QueryImpl.java:984-1008 | A plan delivering exactly the order the selector requested lets the sort be pushed down to the index |
| SortPushDown.ComputedOrderingNeedsSort | oak-core/src/main/java/org/apache/jackrabbit/oak/query/QueryImpl.java:583-587 | Ordering by a computed operand is never pushed down, whatever the plan |
| JoinPlanner.FirstNewly | oak-core/src/main/java/org/apache/jackrabbit/oak/query/QueryImpl.java:682-688 | The first condition not evaluable on the joined selectors but evaluable once the new one is added, or none |
| JoinPlanner.BuildJoin | oak-core/src/main/java/org/apache/jackrabbit/oak/query/QueryImpl.java:672-692 | With nothing joined yet, the selector alone. Otherwise an inner join on the first newly evaluable condition, or null when there is none |
| JoinPlanner.Choose | oak-core/src/main/java/org/apache/jackrabbit/oak/query/QueryImpl.java:647-662 | The first remaining selector whose trial join exists and is strictly cheapest, or null iff no trial join exists |
| JoinPlanner.Remove | oak-core/src/main/java/org/apache/jackrabbit/oak/query/QueryImpl.java:663 | Removing position i loses exactly that element and keeps the others in their order |
| JoinPlanner.Greedy | oak-core/src/main/java/org/apache/jackrabbit/oak/query/QueryImpl.java:642-666 | The greedy loop uses every selector exactly once and builds a left-deep tree in which each join's condition was chosen by `buildJoin`. It fails only in a stuck state: a left-deep tree and a non-empty rest of the selectors, none of which any condition joins to the tree. For distinct names, a failure is stuck at a tree the greedy rounds themselves build (see `GreedyFailsWhenStuck`) |
| JoinPlanner.PlanJoin | oak-core/src/main/java/org/apache/jackrabbit/oak/query/QueryImpl.java:629-669 | For two or more inner-join selectors, a left-deep join over the same selectors. Otherwise the no-join-condition error, raised only when a partial tree is stuck with the remaining selectors; for distinct names that tree is the one the greedy rounds reach |
| JoinPlanner.GreedyFollowsChoose | oak-core/src/main/java/org/apache/jackrabbit/oak/query/QueryImpl.java:642-666 | Every round of a successful run commits the candidate the candidate loop keeps (the first of strictly minimal cost) among the selectors not yet joined, in their original order |
| JoinPlanner.PlanJoinFollowsChoose | oak-core/src/main/java/org/apache/jackrabbit/oak/query/QueryImpl.java:639-666 | For distinct selector names, the planned join is built round by round from the cheapest candidates, starting from the first selector of strictly minimal cost |
| JoinPlanner.GreedyFailsWhenStuck | oak-core/src/main/java/org/apache/jackrabbit/oak/query/QueryImpl.java:642-666 | For distinct names, a failed run from a greedily built tree ends at a tree built round by round from the cheapest candidates, where no selector left over (every selector not in the tree) can be joined |
| JoinPlanner.PlanJoinFailsWhenStuck | oak-core/src/main/java/org/apache/jackrabbit/oak/query/QueryImpl.java:639-666 | For distinct names, a failed plan means the greedy rounds reached a tree that no remaining selector can join: the code only gives up when no candidate join exists |
| JoinPlanner.UnjoinedOne | oak-core/src/main/java/org/apache/jackrabbit/oak/query/QueryImpl.java:663 | Without repeated names, removing the chosen position from the list is dropping that selector from the unjoined ones |
| JoinPlanner.JoinConditionsBecomeEvaluable | oak-core/src/main/java/org/apache/jackrabbit/oak/query/QueryImpl.java:684-688 | In a planned join, each join condition is not evaluable on the left side and is evaluable once the right selector is added |
| JoinPlanner.ChainJoinOrder | oak-core/src/main/java/org/apache/jackrabbit/oak/query/QueryImpl.java:672-692 | With conditions A=B and B=C, C is never added on the right of a tree without B; it may still be the first selector of the plan |
| RowIterator.Advance | oak-core/src/main/java/org/apache/jackrabbit/oak/query/QueryImpl.java:814-841 | `fetchNext`'s loop stops at the next matching row or at the end (exhaustion or `evaluateStop`). The read count grows by one exactly when a row is buffered. The rows still to come are what the reference filter yields |
| RowIterator.FetchNext | oak-core/src/main/java/org/apache/jackrabbit/oak/query/QueryImpl.java:814-841 | Nothing changes once ended. Otherwise the source is started, a row is buffered exactly when not ended, the rows still to come are unchanged, and the read count grows by one per buffered row |
| RowIterator.HasNext | oak-core/src/main/java/org/apache/jackrabbit/oak/query/QueryImpl.java:843-852 | False once ended, and it then stays false. Otherwise true exactly when a row is buffered after fetching; an already buffered row is kept |
| RowIterator.Next | oak-core/src/main/java/org/apache/jackrabbit/oak/query/QueryImpl.java:854-864 | Null after the end. A returned row satisfies the constraint and comes from the source. The buffer is emptied |
| RowIterator.DrainYieldsPending | oak-core/src/main/java/org/apache/jackrabbit/oak/query/QueryImpl.java:814-864 | Calling `next` until null, from any valid state, yields exactly the pending rows of the reference filter, and counts them |
| RowIterator.DrainFromStart | oak-core/src/main/java/org/apache/jackrabbit/oak/query/QueryImpl.java:800-864 | A fresh iterator yields exactly the constraint-matching rows before the first stop, and the read count equals their number |
| ResultSize.SortedSize | oak-core/src/main/java/org/apache/jackrabbit/oak/query/QueryImpl.java:529-536 | The recorded size is `max(0, min(limit, read - offset))`, and for a non-negative offset it lies between 0 and the rows read |
| ResultSize.SubtractionFits | oak-core/src/main/java/org/apache/jackrabbit/oak/query/QueryImpl.java:533-535 | `min(saturatedAdd(limit, offset), read) - offset` never leaves the long range |
| ResultSize.SortedSizeExamples | oak-core/src/main/java/org/apache/jackrabbit/oak/query/QueryImpl.java:529-536 | Concrete sizes, including one where a negative offset makes the size exceed the rows read |
| ResultSize.GetSize | oak-core/src/main/java/org/apache/jackrabbit/oak/query/QueryImpl.java:1159-1166 | A known size is returned as is. Otherwise the lesser of the limit and the source's estimate |
| ResultSize.SortedSizeIsKnown | oak-core/src/main/java/org/apache/jackrabbit/oak/query/QueryImpl.java:527-537 | After a sorted read the size is never the "unknown" marker, so `getSize` returns it |
| UnionRewrite.CostOverhead | oak-core/src/main/java/org/apache/jackrabbit/oak/query/QueryImpl.java:1337-1367 | The overhead is 0 or `Double.MAX_VALUE`. It is the maximum iff some OR reachable through ANDs mixes a full-text and a non-full-text child |
| UnionRewrite.SumOverhead | oak-core/src/main/java/org/apache/jackrabbit/oak/query/QueryImpl.java:1353-1364 | The AND loop returns the maximum iff one of the remaining children is a mixed OR |
| UnionRewrite.OrMixes | oak-core/src/main/java/org/apache/jackrabbit/oak/query/QueryImpl.java:1339-1350 | The OR loop reports a mix iff the children seen and the rest include both a full-text and a non-full-text child |
| UnionRewrite.UpperOccurs | oak-core/src/main/java/org/apache/jackrabbit/oak/query/QueryImpl.java:1243-1254 | Searching the upper-cased statement for a keyword without lower-case letters is a case-insensitive search of the statement: each keyword letter matches itself or its lower-case form |
| UnionRewrite.IndexOf | oak-core/src/main/java/org/apache/jackrabbit/oak/query/QueryImpl.java:1252-1254 | The first occurrence of the pattern at or after the start, or -1 iff there is none |
| UnionRewrite.RecomposeStatement | oak-core/src/main/java/org/apache/jackrabbit/oak/query/QueryImpl.java:1240-1259 | Without a constraint the statement is unchanged. With one, it fails (an out-of-bounds substring) iff the statement has no " WHERE " and is shorter than six characters |
| UnionRewrite.RecomposeReplacesWhereClause | oak-core/src/main/java/org/apache/jackrabbit/oak/query/QueryImpl.java:1240-1259 | For `prefix WHERE condition [ORDER BY …]` the condition is replaced by the new text, keeping the prefix, the keyword's own casing, and the ORDER BY tail |
| UnionRewrite.RecomposeWithoutWhere | oak-core/src/main/java/org/apache/jackrabbit/oak/query/QueryImpl.java:1251 | Without " WHERE " the statement is cut after its first six characters and the text appended |
| QueryModel.NewQuery | oak-core/src/main/java/org/apache/jackrabbit/oak/query/QueryImpl.java:141-209 | A new query is well formed, with an empty registry and no bind variables, not initialised or prepared, no orderings, no limit, offset 0, unknown size, traversal enabled, and the given statement, source, constraint and columns |
| QueryModel.Init | oak-core/src/main/java/org/apache/jackrabbit/oak/query/QueryImpl.java:212-446 | Succeeds iff the source's selector names are new and distinct. Then only these fields change: the query is initialised, the selectors are registered in order, the distinct mask is that of the columns, the bind variables are declared unset, and the constraint is the simplified one |
| QueryModel.InitTwiceFails | oak-core/src/main/java/org/apache/jackrabbit/oak/query/QueryImpl.java:371-379 | A second `init` fails: the selectors are registered again and clash |
| QueryModel.CopyOf | oak-core/src/main/java/org/apache/jackrabbit/oak/query/QueryImpl.java:1284-1306 | Refused iff the query is initialised. Otherwise an uninitialised copy with the same statement, source, constraint, columns, explain and distinct, and default orderings, limit, offset and size |
| QueryModel.CopyThenInit | oak-core/src/main/java/org/apache/jackrabbit/oak/query/QueryImpl.java:1284-1306 | A copy can be initialised iff its selector names are distinct, regardless of the original. An initialised query cannot be copied |
| QueryModel.Branch | oak-core/src/main/java/org/apache/jackrabbit/oak/query/QueryImpl.java:1224-1230 | A union branch can be built iff the query is not initialised and the statement splice succeeds; the error says which. The branch is the query's copy with the disjunct as constraint and the spliced statement |
| QueryModel.BranchFailsAlike | oak-core/src/main/java/org/apache/jackrabbit/oak/query/QueryImpl.java:1224-1229 | Whether a union branch can be built does not depend on the disjunct, so the rewrite fails at its first branch or not at all |
| QueryModel.Chain | oak-core/src/main/java/org/apache/jackrabbit/oak/query/QueryImpl.java:1210-1232 | The union chain has one branch per disjunct, in reverse iteration order; each branch is the disjunct's branch. It fails iff the first branch fails, with that branch's error |
| QueryModel.Link | oak-core/src/main/java/org/apache/jackrabbit/oak/query/QueryImpl.java:1210-1232 | Over branch results that all fail or all succeed: one union branch per result, the last result first; it fails iff the results fail, with the last result's error (in `Chain` every copy raises the same error, so this is the first copy's) |
| QueryModel.LinkExtends | oak-core/src/main/java/org/apache/jackrabbit/oak/query/QueryImpl.java:1214-1231 | Putting the newest branch in front of the chain so far keeps the reverse order of the disjuncts |
| QueryModel.BranchResults | oak-core/src/main/java/org/apache/jackrabbit/oak/query/QueryImpl.java:1213-1230 | The copy of the query made for each disjunct, in iteration order; all copies fail or all succeed |
| QueryModel.LinkedBranches | oak-core/src/main/java/org/apache/jackrabbit/oak/query/QueryImpl.java:1210-1232 | The chain over the copies, restated per disjunct: the k-th union branch is the copy for the k-th disjunct from the end, and a failure carries the first disjunct's error |
| QueryModel.Optimise | oak-core/src/main/java/org/apache/jackrabbit/oak/query/QueryImpl.java:1202-1238 | No constraint, or at most one disjunct: the query itself. Otherwise it fails iff the query is initialised or the statement is shorter than six characters without " WHERE ". On success there is one uninitialised, optimised copy per disjunct, carrying that disjunct as its constraint and the statement with it spliced in, sharing the source and columns |
| QueryModel.OptimiseAfterInitFails | oak-core/src/main/java/org/apache/jackrabbit/oak/query/QueryImpl.java:1284-1288 | Rewriting an initialised query into a union is refused |
| QueryModel.CostOverheadOf | oak-core/src/main/java/org/apache/jackrabbit/oak/query/QueryImpl.java:1324-1326 | Fails iff there is no constraint. Otherwise the maximum iff the constraint contains a mixed OR |
| QueryModel.Prepare | oak-core/src/main/java/org/apache/jackrabbit/oak/query/QueryImpl.java:624-670 | A prepared query is left alone. Otherwise only the prepared flag, the cost, the sort push-down flag and (for a join) the source change. A single selector gets the best selector plan's cost and sort decision. A join fails iff the greedy planner fails, which for distinct names happens only at a tree the greedy rounds reach that no remaining selector can join; otherwise the source becomes a left-deep join of the same selectors, built from the cheapest candidates, with its cost |
| QueryModel.PrepareSelector | oak-core/src/main/java/org/apache/jackrabbit/oak/query/QueryImpl.java:632-636 | The single-selector case: the cost of the best selector plan (no more than traversal when enabled) and whether its plan delivers the order; nothing else changes |
| QueryModel.PrepareJoin | oak-core/src/main/java/org/apache/jackrabbit/oak/query/QueryImpl.java:639-669 | The join case: the greedy planner's tree becomes the source, with its cost, and the sort decision uses the first selector's plan; it fails only when the planner is stuck at a greedily built tree with every remaining selector unjoinable |
| QueryModel.PrepareIsIdempotent | oak-core/src/main/java/org/apache/jackrabbit/oak/query/QueryImpl.java:625-628 | Preparing twice is the same as preparing once |
| QueryModel.PrepareChoosesCheapest | oak-core/src/main/java/org/apache/jackrabbit/oak/query/QueryImpl.java:632-636 | Without a join, the estimated cost is no more than any available index's cost |
| QueryModel.AfterGetRows | oak-core/src/main/java/org/apache/jackrabbit/oak/query/QueryImpl.java:500-538 | Only the size changes. It is recorded only when an in-memory sort ran outside explain mode, and is then the number of rows read less the offset, capped by the limit and clamped at 0 |
| QueryModel.SizeOfSortedRead | oak-core/src/main/java/org/apache/jackrabbit/oak/query/QueryImpl.java:518-537 | After an in-memory sort of `read` rows outside explain mode, `getSize` reports `read` less the offset, capped by the limit, and clamped at 0 |
| QueryModel.SizeAfterSortedExecution | oak-core/src/main/java/org/apache/jackrabbit/oak/query/QueryImpl.java:518-537 | After a sorted execution, `getSize` reports the iterator's matching-row count less the offset, capped by the limit, and clamped at 0 |
| QueryModel.ProducedIsShorter | oak-core/src/main/java/org/apache/jackrabbit/oak/query/QueryImpl.java:825-838 | The iterator never produces more rows than the source offers |

## Left out

- The AST visitor of `init` (binding operands to selectors, `setQuery`) is represented only by its outcome: the bind-variable names it meets and the source's selector names, in visit order. `init` visits selectors and bind variables interleaved, so the order would matter only for which exception comes first. The model raises only the duplicate-selector error of the selector visit. The operands' and columns' `bindSelector` calls (in the operand classes, not part of this model) can also throw for a selector name the source does not declare; those errors are not modelled.
- `Ast.Selectors` gives the selectors of a source in left-to-right order. `getInnerJoinSelectors` / `getInnerJoinConditions` (in `SourceImpl` and `JoinImpl`) are not part of this model; `Prepare` takes them as inputs.
- Index providers, `QueryIndex.getCost`, `AdvancedQueryIndex.getPlans` and `TraversingIndex` are not part of this model. Their answers (minimum cost, cost or plan list, traversal cost) are data. An advanced index's plans are taken as given for the requested sort order, which `RequestedSortOrder` computes separately.
- Costs are exact reals, so floating-point rounding, NaN and the addition of `Double.MAX_VALUE` to itself are not modelled. `entryCount * costPerEntry` is exact.
- Debug logging, the error log for a negative cost, and the plan-name suffix on the index name are left out.
- `IndexSelection.SortByMinimumCost`: proved sorted and a permutation. Guava's `sortedCopy` is also stable; the model's insertion sort keeps ties in order, but that is not stated.
- `JoinPlanner.PlanJoin`: `canEvaluate` and the cost of a trial join are function parameters. Preparing a trial and unpreparing it are not modelled. A round with no candidate join throws a `NullPointerException` in the code (`best.prepare`); the model reports `NoJoinCondition`.
- `JoinPlanner.PlanJoinFollowsChoose`: stated for distinct selector names only. With a repeated name, removing by position and dropping by name differ; `init` rejects repeated selector names in any case.
- `QueryModel.Prepare`: `prepared` is set before planning, so after a failed join planning a second `prepare` returns silently. The model returns the failure and does not keep that state. With at most one inner-join selector the code calls `prepare` on the whole source. For a plain selector that is the selector's best plan, which the model computes. For an outer join, `JoinImpl.prepare` (not part of this model) combines the costs of both sides. The model instead takes the best plan of the one selector whose indexes are given, so the cost and sort decision of an outer-join query are not modelled. After a join is planned, the first selector's index plan is a parameter. `innerSelectors` is taken as given: that it lists the inner-join selectors of `q.source` (`getInnerJoinSelectors`) is not stated.
- `RowIterator`: the source's cursor is a row list plus the `evaluate` / `evaluateStop` functions. `source.execute` is the `started` flag. The read count is incremented only for rows that satisfy the constraint, as the code does, not for every row examined.
- `QueryModel.AfterGetRows`: the combined filter (`FilterIterators.newCombinedFilter`: distinct, limit, offset, sort) is not part of this model. Its only effect modelled is that sorting reads every row. `read` is the row iterator's count and is assumed to fit in a long. The explain row, `MeasuringIterator` and the `ResultImpl` wrapper are left out.
- `UnionRewrite.UpperOccurs`: `Upper` upper-cases ASCII letters only; Java's locale-dependent `toUpperCase` is not modelled.
- `UnionRewrite.RecomposeStatement`: the constraint's `toString` is the `show` parameter. `getStatement` falls back to `toString()` for an empty statement; the model uses the statement as stored.
- `QueryModel.Optimise`: an empty statement is not handled as the code handles it. `getStatement` (QueryImpl.java:1169-1171) then falls back to `toString()`, and the rewrite works on that text. The model has no `toString()` and fails for every statement shorter than six characters without " WHERE ", the empty one included. `simplifyForUnion` is not part of this model. Its result set is the `disjuncts` parameter, in iteration order, and a set has no duplicates. `copyElementAndCheckReference` copies are modelled as sharing the value.
- `getPlan`, `getIndexCostInfo`, `toString`, `getTree`, `getOakPath`, `isMeasureOrExplainEnabled` and the execution context are presentation or repository access, and are left out.

=== FILE: ast.dfy ===
/** The parsed query as the planner sees it: orderings, columns, the
    constraint tree, join conditions and the source tree. The parser that
    builds these values, and the per-node binding it performs, are outside
    the model. */
module Ast {
  import opened Wrappers

  /** Direction of an index sort order entry. */
  datatype Order = Ascending | Descending

  /** One entry of the sort order an index plan delivers natively. */
  datatype OrderEntry = OrderEntry(propertyName: string, order: Order)

  /** The operand of an ORDER BY entry: a plain property value of one
      selector, or any computed operand (LOWER, LENGTH, NAME, ...). */
  datatype Operand =
    | PropertyValue(selectorName: string, propertyName: string)
    | ComputedOperand(description: string)

  datatype Ordering = Ordering(operand: Operand, descending: bool)

  /** A projected column; a column's property name and column name may be
      absent (Java null). */
  datatype Column = Column(selectorName: string, propertyName: Option<string>, columnName: Option<string>)

  /** A bound value (opaque here). */
  datatype PropertyValue = Value(text: string)

  /** The WHERE tree. Only AND and OR report child constraints; every other
      constraint kind is a leaf, with full-text search distinguished because
      the union cost heuristic looks for it. */
  datatype Constraint =
    | And(operands: seq<Constraint>)
    | Or(operands: seq<Constraint>)
    | FullTextSearch(selectorName: string, expression: string)
    | Condition(description: string)

  /** A join condition (equi-join, same node, child node, descendant node);
      which selectors it needs is decided by an evaluability function the
      planner is given. */
  datatype JoinCondition = JoinCondition(description: string)

  datatype JoinType = Inner | LeftOuter | RightOuter

  /** The FROM tree. */
  datatype Source =
    | Selector(name: string)
    | Join(left: Source, right: Source, joinType: JoinType, condition: JoinCondition)

  /** The selector names of a source tree, left to right. */
  function Selectors(s: Source): (r: seq<string>)
    ensures |r| > 0
  {
    match s
    case Selector(n) => [n]
    case Join(l, r, _, _) => Selectors(l) + Selectors(r)
  }

  /** Usage errors `QueryImpl` raises as exceptions. */
  datatype QueryError =
    | DuplicateSelector(name: string)
    | UnknownSelector(name: string)
    | UnsetBindVariable(name: string)
    | ClonedAfterInit
    | NoJoinCondition
    | StatementIndexOutOfBounds
    | NullConstraint

  /** The reserved score pseudo-property, which never makes rows distinct. */
  const JCR_SCORE: string := "jcr:score"
}

=== FILE: costs.dfy ===
/** Planner costs. `QueryImpl` uses `double` with `POSITIVE_INFINITY` as "no
    plan yet"; the model uses a real number or an explicit infinity. */
module Costs {

  datatype Cost = Finite(value: real) | Infinity

  /** `a < b` on doubles (NaN is not modelled). */
  predicate Less(a: Cost, b: Cost) {
    match (a, b)
    case (Finite(x), Finite(y)) => x < y
    case (Finite(_), Infinity) => true
    case (Infinity, _) => false
  }

  predicate LessEq(a: Cost, b: Cost) {
    !Less(b, a)
  }

  lemma LessIsStrictTotalOrder(a: Cost, b: Cost, c: Cost)
    ensures !Less(a, a)
    ensures Less(a, b) ==> !Less(b, a)
    ensures Less(a, b) && Less(b, c) ==> Less(a, c)
    ensures a != b ==> Less(a, b) || Less(b, a)
  {
  }
}

=== FILE: index_selection.dfy ===
/** Cost-based choice of the access path for one selector
    (`getBestSelectorExecutionPlan`): indexes are visited in ascending order
    of their minimum cost, with an early stop, and a full traversal is the
    fallback. */
module IndexSelection {
  import opened Wrappers
  import opened Longs
  import opened Costs
  import opened Ast

  /** A plan an advanced index proposes: per-execution and per-entry costs,
      an estimated entry count, and the sort order it delivers, if any. */
  datatype IndexPlan = IndexPlan(
    estimatedEntryCount: Long,
    costPerExecution: real,
    costPerEntry: real,
    sortOrder: Option<seq<OrderEntry>>,
    planName: Option<string>)

  /** A registered index: a simple one reports one cost for the filter, an
      advanced one proposes plans. Both report a cheap lower bound
      `minimumCost`. */
  datatype QueryIndex =
    | Simple(name: string, minimumCost: Cost, cost: Cost)
    | Advanced(name: string, minimumCost: Cost, plans: seq<IndexPlan>)

  datatype IndexChoice = Provided(index: QueryIndex) | Traversing

  /** `SelectorExecutionPlan`: the chosen index (absent when nothing was
      usable and traversal is disabled), its plan, and the cost. */
  datatype SelectorPlan = SelectorPlan(index: Option<IndexChoice>, plan: Option<IndexPlan>, cost: Cost)

  // ---------------------------------------------------------------------
  // Ordering the indexes by minimum cost

  predicate SortedByMinimumCost(xs: seq<QueryIndex>) {
    forall i, j :: 0 <= i < j < |xs| ==> LessEq(xs[i].minimumCost, xs[j].minimumCost)
  }

  function Insert(x: QueryIndex, s: seq<QueryIndex>): (r: seq<QueryIndex>)
    requires SortedByMinimumCost(s)
    ensures SortedByMinimumCost(r)
    ensures multiset(r) == multiset(s) + multiset{x}
    ensures |r| == |s| + 1
    ensures r[0] == x || (s != [] && r[0] == s[0])
  {
    if s == [] || LessEq(x.minimumCost, s[0].minimumCost) then
      forall j | 0 <= j < |s| ensures LessEq(x.minimumCost, s[j].minimumCost) {
        if j > 0 {
          LessIsStrictTotalOrder(s[j].minimumCost, s[0].minimumCost, x.minimumCost);
        }
      }
      [x] + s
    else
      var rest := Insert(x, s[1..]);
      assert s == [s[0]] + s[1..];
      LessIsStrictTotalOrder(x.minimumCost, s[0].minimumCost, x.minimumCost);
      SortedCons(s[0], rest);
      [s[0]] + rest
  }

  /** An element no dearer than the head of a sorted list extends it. */
  lemma SortedCons(a: QueryIndex, rest: seq<QueryIndex>)
    requires SortedByMinimumCost(rest)
    requires rest != [] ==> LessEq(a.minimumCost, rest[0].minimumCost)
    ensures SortedByMinimumCost([a] + rest)
  {
    var r := [a] + rest;
    forall i, j | 0 <= i < j < |r| ensures LessEq(r[i].minimumCost, r[j].minimumCost) {
      if i == 0 && j > 1 {
        assert r[j] == rest[j - 1];
        LessIsStrictTotalOrder(rest[j - 1].minimumCost, rest[0].minimumCost, a.minimumCost);
      }
    }
  }

  /** `MINIMAL_COST_ORDERING.sortedCopy`: a stable sort by minimum cost. */
  function SortByMinimumCost(xs: seq<QueryIndex>): (r: seq<QueryIndex>)
    ensures SortedByMinimumCost(r)
    ensures multiset(r) == multiset(xs)
  {
    if xs == [] then []
    else
      assert xs == [xs[0]] + xs[1..];
      Insert(xs[0], SortByMinimumCost(xs[1..]))
  }

  // ---------------------------------------------------------------------
  // Costing one index

  /** The entry cap for advanced indexes: `limit`, or `offset + limit` when
      the offset is positive, with a sum that overflows Java's long (and so
      turns negative) replaced by `Long.MAX_VALUE`. */
  function MaxEntryCount(limit: Long, offset: Long): (r: Long)
    ensures offset <= 0 ==> r == limit
    ensures offset > 0 && offset + limit < 0 ==> r == LONG_MAX
    ensures offset > 0 && offset + limit >= 0 ==> r == Min(offset + limit, LONG_MAX)
  {
    if offset > 0 then
      var sum := WrapSum(offset, limit);
      if sum < 0 then LONG_MAX else sum
    else
      limit
  }

  /** For a non-negative limit and a positive offset the cap is exactly the
      saturated sum. */
  lemma MaxEntryCountSaturates(limit: Long, offset: Long)
    requires limit >= 0 && offset > 0
    ensures MaxEntryCount(limit, offset) == SaturatedAdd(offset, limit)
  {
  }

  /** Cost of one plan: per-execution cost plus the capped entry count times
      the per-entry cost. */
  function PlanCost(p: IndexPlan, cap: Long): (r: real)
    ensures p.estimatedEntryCount <= cap ==> r == p.costPerExecution + p.estimatedEntryCount as real * p.costPerEntry
    ensures cap <= p.estimatedEntryCount ==> r == p.costPerExecution + cap as real * p.costPerEntry
  {
    p.costPerExecution + (Min(cap, p.estimatedEntryCount) as real) * p.costPerEntry
  }

  /** With a non-negative per-entry cost, a larger cap never makes a plan
      cheaper, and a plan never costs more than reading all its estimated
      entries. */
  lemma PlanCostMonotone(p: IndexPlan, a: Long, b: Long)
    requires a <= b && p.costPerEntry >= 0.0
    ensures PlanCost(p, a) <= PlanCost(p, b)
    ensures PlanCost(p, b) <= p.costPerExecution + p.estimatedEntryCount as real * p.costPerEntry
  {
    var ma, mb, e := Min(a, p.estimatedEntryCount) as real, Min(b, p.estimatedEntryCount) as real, p.estimatedEntryCount as real;
    assert ma <= mb <= e;
    MulMonotone(ma, mb, p.costPerEntry);
    MulMonotone(mb, e, p.costPerEntry);
  }

  lemma MulMonotone(x: real, y: real, c: real)
    requires x <= y && c >= 0.0
    ensures x * c <= y * c
  {
    assert y * c - x * c == (y - x) * c;
  }

  datatype PlanChoice = PlanChoice(cost: Cost, index: Option<nat>)

  /** The plan loop of an advanced index: the first plan of strictly minimal
      cost, or none (and infinite cost) when the index proposes no plan. */
  function BestPlan(plans: seq<IndexPlan>, cap: Long): (r: PlanChoice)
    ensures r.index.None? <==> plans == []
    ensures r.index.None? ==> r.cost == Infinity
    ensures r.index.Some? ==> r.index.value < |plans| && r.cost == Finite(PlanCost(plans[r.index.value], cap))
    ensures forall j :: 0 <= j < |plans| ==> LessEq(r.cost, Finite(PlanCost(plans[j], cap)))
    ensures r.index.Some? ==> forall j :: 0 <= j < r.index.value ==> Less(r.cost, Finite(PlanCost(plans[j], cap)))
    decreases |plans|
  {
    if plans == [] then PlanChoice(Infinity, None)
    else
      var last := |plans| - 1;
      var prev := BestPlan(plans[..last], cap);
      var c := Finite(PlanCost(plans[last], cap));
      assert forall j :: 0 <= j < last ==> plans[..last][j] == plans[j];
      if Less(c, prev.cost) then PlanChoice(c, Some(last)) else prev
  }

  /** The cost the selection loop computes for one index. */
  function IndexCost(x: QueryIndex, cap: Long): (r: Cost)
    ensures x.Simple? ==> r == x.cost
    ensures x.Advanced? ==> (r == Infinity <==> x.plans == [])
    ensures x.Advanced? ==> forall j :: 0 <= j < |x.plans| ==> LessEq(r, Finite(PlanCost(x.plans[j], cap)))
    ensures x.Advanced? && x.plans != [] ==> exists j :: 0 <= j < |x.plans| && r == Finite(PlanCost(x.plans[j], cap))
  {
    match x
    case Simple(_, _, c) => c
    case Advanced(_, _, plans) => BestPlan(plans, cap).cost
  }

  /** The plan that goes with `IndexCost`. */
  function IndexPlanOf(x: QueryIndex, cap: Long): Option<IndexPlan> {
    match x
    case Simple(_, _, _) => None
    case Advanced(_, _, plans) =>
      var b := BestPlan(plans, cap);
      if b.index.Some? then Some(plans[b.index.value]) else None
  }

  // ---------------------------------------------------------------------
  // The selection loop

  /** Where the loop stopped: the best cost, the position of the best index
      in the sorted list, and how many indexes were examined. */
  datatype ScanResult = ScanResult(cost: Cost, best: Option<nat>, examined: nat)

  /** The best cost the loop holds once it has costed the indexes from `i`
      up to (not including) `j`, having started with `bestCost`: an index
      replaces the best only when strictly cheaper. */
  function Cheapest(xs: seq<QueryIndex>, cap: Long, i: nat, j: nat, bestCost: Cost): Cost
    requires i <= j <= |xs|
    decreases j - i
  {
    if i == j then bestCost
    else
      var c := IndexCost(xs[i], cap);
      Cheapest(xs, cap, i + 1, j, if Less(c, bestCost) then c else bestCost)
  }

  /** The index loop from position `i` on: stop as soon as the next minimum
      cost exceeds the best cost so far; otherwise cost the index and keep it
      when it is strictly cheaper. */
  function Scan(xs: seq<QueryIndex>, cap: Long, i: nat, bestCost: Cost, best: Option<nat>): (r: ScanResult)
    requires i <= |xs|
    requires best.Some? ==> best.value < i && bestCost == IndexCost(xs[best.value], cap) && bestCost != Infinity
    requires best.None? ==> bestCost == Infinity
    requires forall j :: 0 <= j < i ==> LessEq(bestCost, IndexCost(xs[j], cap))
    requires best.Some? ==> forall j :: 0 <= j < best.value ==> Less(bestCost, IndexCost(xs[j], cap))
    ensures i <= r.examined <= |xs|
    ensures r.best.Some? ==> r.best.value < r.examined && r.cost == IndexCost(xs[r.best.value], cap) && r.cost != Infinity
    ensures r.best.None? ==> r.cost == Infinity
    ensures forall j :: 0 <= j < r.examined ==> LessEq(r.cost, IndexCost(xs[j], cap))
    ensures r.best.Some? ==> forall j :: 0 <= j < r.best.value ==> Less(r.cost, IndexCost(xs[j], cap))
    ensures r.examined < |xs| ==> Less(r.cost, xs[r.examined].minimumCost)
    ensures LessEq(r.cost, bestCost)
    decreases |xs| - i
  {
    if i == |xs| then ScanResult(bestCost, best, i)
    else if Less(bestCost, xs[i].minimumCost) then ScanResult(bestCost, best, i)
    else
      var c := IndexCost(xs[i], cap);
      if Less(c, bestCost) then
        NewBestIsStrictlyCheapest(xs, cap, i, bestCost, c);
        Scan(xs, cap, i + 1, c, Some(i))
      else Scan(xs, cap, i + 1, bestCost, best)
  }

  /** The loop passes an index only while its minimum cost is no more than
      the running best, and ends with that running best: together with the
      stop clause of `Scan`, it stops at the first index whose minimum cost
      exceeds the best so far. */
  lemma {:induction false} ScanStopsAtFirstCostlier(xs: seq<QueryIndex>, cap: Long, i: nat, bestCost: Cost, best: Option<nat>)
    requires i <= |xs|
    requires best.Some? ==> best.value < i && bestCost == IndexCost(xs[best.value], cap) && bestCost != Infinity
    requires best.None? ==> bestCost == Infinity
    requires forall j :: 0 <= j < i ==> LessEq(bestCost, IndexCost(xs[j], cap))
    requires best.Some? ==> forall j :: 0 <= j < best.value ==> Less(bestCost, IndexCost(xs[j], cap))
    ensures var r := Scan(xs, cap, i, bestCost, best);
      && (forall j :: i <= j < r.examined ==> LessEq(xs[j].minimumCost, Cheapest(xs, cap, i, j, bestCost)))
      && r.cost == Cheapest(xs, cap, i, r.examined, bestCost)
    decreases |xs| - i
  {
    if i < |xs| && !Less(bestCost, xs[i].minimumCost) {
      var c := IndexCost(xs[i], cap);
      if Less(c, bestCost) {
        NewBestIsStrictlyCheapest(xs, cap, i, bestCost, c);
        ScanStopsAtFirstCostlier(xs, cap, i + 1, c, Some(i));
      } else {
        ScanStopsAtFirstCostlier(xs, cap, i + 1, bestCost, best);
      }
      CheapestStep(xs, cap, i, bestCost, Scan(xs, cap, i, bestCost, best));
    }
  }

  /** One more examined index extends what the rest of the loop says about
      the running best back to position `i`. */
  lemma CheapestStep(xs: seq<QueryIndex>, cap: Long, i: nat, bestCost: Cost, r: ScanResult)
    requires i < |xs| && i + 1 <= r.examined <= |xs|
    requires LessEq(xs[i].minimumCost, bestCost)
    requires var c := IndexCost(xs[i], cap);
      var next := if Less(c, bestCost) then c else bestCost;
      && (forall j :: i + 1 <= j < r.examined ==> LessEq(xs[j].minimumCost, Cheapest(xs, cap, i + 1, j, next)))
      && r.cost == Cheapest(xs, cap, i + 1, r.examined, next)
    ensures forall j :: i <= j < r.examined ==> LessEq(xs[j].minimumCost, Cheapest(xs, cap, i, j, bestCost))
    ensures r.cost == Cheapest(xs, cap, i, r.examined, bestCost)
  {
  }

  /** A cost strictly below the best so far is strictly below every index
      costed before it. */
  lemma NewBestIsStrictlyCheapest(xs: seq<QueryIndex>, cap: Long, i: nat, bestCost: Cost, c: Cost)
    requires i <= |xs|
    requires forall j :: 0 <= j < i ==> LessEq(bestCost, IndexCost(xs[j], cap))
    requires Less(c, bestCost)
    ensures forall j :: 0 <= j < i ==> Less(c, IndexCost(xs[j], cap))
  {
    forall j | 0 <= j < i ensures Less(c, IndexCost(xs[j], cap)) {
      assert LessEq(bestCost, IndexCost(xs[j], cap));
      LessIsStrictTotalOrder(c, bestCost, IndexCost(xs[j], cap));
      LessIsStrictTotalOrder(bestCost, IndexCost(xs[j], cap), c);
    }
  }

  /** The loop over the indexes sorted by minimum cost, from the start. */
  function SortedScan(indexes: seq<QueryIndex>, cap: Long): ScanResult {
    Scan(SortByMinimumCost(indexes), cap, 0, Infinity, None)
  }

  /** `getBestSelectorExecutionPlan`: scan the sorted indexes, then compare
      with traversal, which is adopted when strictly cheaper or when the
      best cost is still infinite. */
  function BestSelectorPlan(indexes: seq<QueryIndex>, limit: Long, offset: Long,
                            traversalEnabled: bool, traversalCost: Cost): (r: SelectorPlan)
    ensures traversalEnabled ==> r.index.Some? && LessEq(r.cost, traversalCost)
    ensures r.index.None? ==> !traversalEnabled && r.cost == Infinity && r.plan.None?
    ensures r.index == Some(Traversing) ==> traversalEnabled && r.cost == traversalCost && r.plan.None?
    ensures r.index.Some? && r.index.value.Provided? ==>
      var x := r.index.value.index;
      && x in indexes
      && r.cost == IndexCost(x, MaxEntryCount(limit, offset))
      && r.plan == IndexPlanOf(x, MaxEntryCount(limit, offset))
      && r.cost != Infinity
    ensures r.index.Some? && r.index.value.Provided? ==>
      var s := SortedScan(indexes, MaxEntryCount(limit, offset));
      && s.best.Some? && s.best.value < |indexes|
      && r.index.value.index == SortByMinimumCost(indexes)[s.best.value]
      && r.cost == s.cost
    ensures LessEq(r.cost, SortedScan(indexes, MaxEntryCount(limit, offset)).cost)
    ensures var scanCost := SortedScan(indexes, MaxEntryCount(limit, offset)).cost;
      r.index == Some(Traversing) <==> traversalEnabled && (Less(traversalCost, scanCost) || scanCost == Infinity)
  {
    var sorted := SortByMinimumCost(indexes);
    var cap := MaxEntryCount(limit, offset);
    var s := SortedScan(indexes, cap);
    if traversalEnabled && (Less(traversalCost, s.cost) || s.cost == Infinity) then
      SelectorPlan(Some(Traversing), None, traversalCost)
    else if s.best.Some? then
      var x := sorted[s.best.value];
      assert x in multiset(indexes);
      SelectorPlan(Some(Provided(x)), IndexPlanOf(x, cap), s.cost)
    else
      SelectorPlan(None, None, Infinity)
  }

  /** When every index's minimum cost is a true lower bound of its cost, the
      early stop loses nothing: the scan's cost is at most the cost of every
      index, examined or not. */
  lemma ScanIsOptimal(indexes: seq<QueryIndex>, cap: Long, x: QueryIndex)
    requires forall y :: y in indexes ==> LessEq(y.minimumCost, IndexCost(y, cap))
    requires x in indexes
    ensures LessEq(SortedScan(indexes, cap).cost, IndexCost(x, cap))
  {
    var sorted := SortByMinimumCost(indexes);
    var s := SortedScan(indexes, cap);
    assert x in multiset(sorted);
    var j :| 0 <= j < |sorted| && sorted[j] == x;
    if j >= s.examined {
      StopLosesNothing(sorted, cap, s.cost, s.examined, j);
    }
  }

  /** An index at or after the stopping point of a scan over sorted indexes
      costs no less than the scan's result. */
  lemma StopLosesNothing(sorted: seq<QueryIndex>, cap: Long, cost: Cost, stop: nat, j: nat)
    requires SortedByMinimumCost(sorted)
    requires stop <= j < |sorted|
    requires Less(cost, sorted[stop].minimumCost)
    requires LessEq(sorted[j].minimumCost, IndexCost(sorted[j], cap))
    ensures LessEq(cost, IndexCost(sorted[j], cap))
  {
    var m := sorted[stop].minimumCost;
    var mj := sorted[j].minimumCost;
    assert LessEq(m, mj);
    LessIsStrictTotalOrder(cost, m, mj);
    LessIsStrictTotalOrder(cost, mj, IndexCost(sorted[j], cap));
  }

  /** The same for the whole selection, traversal included. */
  lemma BestSelectorPlanIsOptimal(indexes: seq<QueryIndex>, limit: Long, offset: Long,
                                  traversalEnabled: bool, traversalCost: Cost, x: QueryIndex)
    requires forall y :: y in indexes ==> LessEq(y.minimumCost, IndexCost(y, MaxEntryCount(limit, offset)))
    requires x in indexes
    ensures LessEq(BestSelectorPlan(indexes, limit, offset, traversalEnabled, traversalCost).cost,
                   IndexCost(x, MaxEntryCount(limit, offset)))
  {
    var cap := MaxEntryCount(limit, offset);
    ScanIsOptimal(indexes, cap, x);
    LessIsStrictTotalOrder(BestSelectorPlan(indexes, limit, offset, traversalEnabled, traversalCost).cost,
                           SortedScan(indexes, cap).cost, IndexCost(x, cap));
  }

  // ---------------------------------------------------------------------
  // The sort order requested from advanced indexes

  function EntryFor(o: Ordering): OrderEntry
    requires o.operand.PropertyValue?
  {
    OrderEntry(o.operand.propertyName, if o.descending then Descending else Ascending)
  }

  predicate OnSelector(o: Ordering, selector: string) {
    o.operand.PropertyValue? && o.operand.selectorName == selector
  }

  /** The ordering loop: stop at the first computed operand (ordering by a
      function is not pushed down), skip property values of other
      selectors, translate the rest. */
  function CollectOrder(os: seq<Ordering>, selector: string): (r: seq<OrderEntry>)
    ensures |r| <= |os|
  {
    if os == [] then []
    else if !os[0].operand.PropertyValue? then []
    else if os[0].operand.selectorName != selector then CollectOrder(os[1..], selector)
    else [EntryFor(os[0])] + CollectOrder(os[1..], selector)
  }

  /** Every requested entry translates an ordering on this selector that
      comes before any computed operand. */
  lemma {:induction false} CollectOrderSource(os: seq<Ordering>, selector: string, k: nat)
    requires k < |CollectOrder(os, selector)|
    ensures exists i ::
      && 0 <= i < |os| && OnSelector(os[i], selector)
      && CollectOrder(os, selector)[k] == EntryFor(os[i])
      && (forall j :: 0 <= j < i ==> os[j].operand.PropertyValue?)
  {
    var r := CollectOrder(os, selector);
    var rest := CollectOrder(os[1..], selector);
    if os[0].operand.selectorName == selector && k == 0 {
      assert OnSelector(os[0], selector) && r[0] == EntryFor(os[0]);
    } else {
      var k' := if os[0].operand.selectorName == selector then k - 1 else k;
      assert r[k] == rest[k'];
      CollectOrderSource(os[1..], selector, k');
      var i :| 0 <= i < |os[1..]| && OnSelector(os[1..][i], selector)
        && rest[k'] == EntryFor(os[1..][i])
        && forall j :: 0 <= j < i ==> os[1..][j].operand.PropertyValue?;
      assert os[1..][i] == os[i + 1];
      forall j | 0 <= j < i + 1 ensures os[j].operand.PropertyValue? {
        if j > 0 {
          assert os[j] == os[1..][j - 1];
        }
      }
    }
  }

  /** Orderings that are all property values of this selector are all
      requested, in order. */
  lemma {:induction false} CollectOrderAll(os: seq<Ordering>, selector: string)
    requires forall i :: 0 <= i < |os| ==> OnSelector(os[i], selector)
    ensures |CollectOrder(os, selector)| == |os|
    ensures forall i :: 0 <= i < |os| ==> OnSelector(os[i], selector) && CollectOrder(os, selector)[i] == EntryFor(os[i])
  {
    if os != [] {
      assert forall i :: 0 <= i < |os[1..]| ==> os[1..][i] == os[i + 1];
      CollectOrderAll(os[1..], selector);
      var r := CollectOrder(os, selector);
      assert r == [EntryFor(os[0])] + CollectOrder(os[1..], selector);
      forall i | 0 < i < |os| ensures r[i] == EntryFor(os[i]) {
        assert r[i] == CollectOrder(os[1..], selector)[i - 1];
        assert os[1..][i - 1] == os[i];
      }
    }
  }

  /** Conversely, every ordering on this selector that comes before any
      computed operand is requested. */
  lemma {:induction false} CollectOrderComplete(os: seq<Ordering>, selector: string, i: nat)
    requires i < |os| && OnSelector(os[i], selector)
    requires forall j :: 0 <= j < i ==> os[j].operand.PropertyValue?
    ensures exists k :: 0 <= k < |CollectOrder(os, selector)| && CollectOrder(os, selector)[k] == EntryFor(os[i])
  {
    var r := CollectOrder(os, selector);
    if i == 0 {
      assert r[0] == EntryFor(os[0]);
    } else {
      var rest := CollectOrder(os[1..], selector);
      forall j | 0 <= j < i - 1 ensures os[1..][j].operand.PropertyValue? {
        assert os[1..][j] == os[j + 1];
      }
      assert os[1..][i - 1] == os[i];
      CollectOrderComplete(os[1..], selector, i - 1);
      var k' :| 0 <= k' < |rest| && rest[k'] == EntryFor(os[i]);
      if os[0].operand.selectorName == selector {
        assert r == [EntryFor(os[0])] + rest && r[k' + 1] == rest[k'];
      } else {
        assert r == rest;
      }
    }
  }

  /** The translation is compositional up to the first computed operand:
      a prefix of property values contributes its own entries, and a
      computed operand ends the list. Together with the one-element cases
      these equations determine `CollectOrder` completely. */
  lemma {:induction false} CollectOrderAppend(a: seq<Ordering>, b: seq<Ordering>, selector: string)
    requires forall j :: 0 <= j < |a| ==> a[j].operand.PropertyValue?
    ensures CollectOrder(a + b, selector) == CollectOrder(a, selector) + CollectOrder(b, selector)
  {
    if a == [] {
      assert a + b == b;
    } else {
      assert (a + b)[0] == a[0] && (a + b)[1..] == a[1..] + b;
      forall j | 0 <= j < |a[1..]| ensures a[1..][j].operand.PropertyValue? {
        assert a[1..][j] == a[j + 1];
      }
      CollectOrderAppend(a[1..], b, selector);
      if a[0].operand.selectorName == selector {
        assert [EntryFor(a[0])] + (CollectOrder(a[1..], selector) + CollectOrder(b, selector))
            == ([EntryFor(a[0])] + CollectOrder(a[1..], selector)) + CollectOrder(b, selector);
      }
    }
  }

  lemma CollectOrderSingle(o: Ordering, rest: seq<Ordering>, selector: string)
    ensures CollectOrder([o], selector) == if OnSelector(o, selector) then [EntryFor(o)] else []
    ensures !o.operand.PropertyValue? ==> CollectOrder([o] + rest, selector) == []
  {
    assert [o][1..] == [];
  }

  /** The requested sort order: null without ORDER BY, and null again when
      nothing could be translated. */
  function RequestedSortOrder(orderings: Option<seq<Ordering>>, selector: string): (r: Option<seq<OrderEntry>>)
    ensures orderings.None? ==> r.None?
    ensures r.Some? ==> |r.value| > 0 && r.value == CollectOrder(orderings.value, selector)
    ensures orderings.Some? && r.None? ==>
      forall i :: 0 <= i < |orderings.value| && OnSelector(orderings.value[i], selector) ==>
        exists j :: 0 <= j < i && !orderings.value[j].operand.PropertyValue?
    ensures orderings.Some? && |orderings.value| > 0
            && (forall i :: 0 <= i < |orderings.value| ==> OnSelector(orderings.value[i], selector))
        ==> r.Some? && |r.value| == |orderings.value|
            && forall i :: 0 <= i < |orderings.value| ==> r.value[i] == EntryFor(orderings.value[i])
  {
    if orderings.None? then None
    else
      var l := CollectOrder(orderings.value, selector);
      var r := if l == [] then None else Some(l);
      NoneMeansNothingRequested(orderings.value, selector);
      if forall i :: 0 <= i < |orderings.value| ==> OnSelector(orderings.value[i], selector) then
        CollectOrderAll(orderings.value, selector);
        r
      else r
  }

  /** With nothing translated, every ordering on this selector sits behind
      a computed operand. */
  lemma NoneMeansNothingRequested(os: seq<Ordering>, selector: string)
    ensures CollectOrder(os, selector) == [] ==>
      forall i :: 0 <= i < |os| && OnSelector(os[i], selector) ==>
        exists j :: 0 <= j < i && !os[j].operand.PropertyValue?
  {
    forall i | 0 <= i < |os| && OnSelector(os[i], selector) && CollectOrder(os, selector) == []
      ensures exists j :: 0 <= j < i && !os[j].operand.PropertyValue?
    {
      if forall j :: 0 <= j < i ==> os[j].operand.PropertyValue? {
        CollectOrderComplete(os, selector, i);
      }
    }
  }
}

=== FILE: join_planner.dfy ===
/** The greedy join planner of `prepare` and its helper `buildJoin`: a
    left-deep join tree is grown one selector per round, each round
    committing the cheapest candidate that some join condition connects to
    the selectors joined so far. */
module JoinPlanner {
  import opened Wrappers
  import opened Costs
  import opened Ast
  import Reg = Selectors

  /** What the planner is given about the query: the inner join conditions
      in declaration order, which selector sets can evaluate a condition,
      and the estimated cost of a prepared candidate tree. */
  datatype Planning = Planning(
    conditions: seq<JoinCondition>,
    canEvaluate: (JoinCondition, set<string>) -> bool,
    cost: Source -> Cost)

  function SetOf(s: seq<string>): set<string> {
    set x | x in s
  }

  /** A condition that the joined selectors could not evaluate, but can once
      `added` joins them. */
  predicate NewlyEvaluable(p: Planning, c: JoinCondition, joined: set<string>, added: string) {
    !p.canEvaluate(c, joined) && p.canEvaluate(c, joined + {added})
  }

  /** The condition loop of `buildJoin`, from position `i` on. */
  function FirstNewly(p: Planning, joined: set<string>, added: string, i: nat): (r: Option<nat>)
    requires i <= |p.conditions|
    ensures r.Some? ==> i <= r.value < |p.conditions| && NewlyEvaluable(p, p.conditions[r.value], joined, added)
    ensures r.Some? ==> forall j :: i <= j < r.value ==> !NewlyEvaluable(p, p.conditions[j], joined, added)
    ensures r.None? ==> forall j :: i <= j < |p.conditions| ==> !NewlyEvaluable(p, p.conditions[j], joined, added)
    decreases |p.conditions| - i
  {
    if i == |p.conditions| then None
    else if NewlyEvaluable(p, p.conditions[i], joined, added) then Some(i)
    else FirstNewly(p, joined, added, i + 1)
  }

  /** `buildJoin`: the bare candidate when nothing is joined yet; otherwise an
      inner join with the first newly evaluable condition, or nothing. */
  function BuildJoin(p: Planning, result: Option<Source>, last: string): (r: Option<Source>)
    ensures result.None? ==> r == Some(Selector(last))
    ensures result.Some? ==>
      (r.Some? <==> exists k :: 0 <= k < |p.conditions|
                     && NewlyEvaluable(p, p.conditions[k], SetOf(Selectors(result.value)), last))
    ensures result.Some? && r.Some? ==>
      exists k :: 0 <= k < |p.conditions|
        && r.value == Join(result.value, Selector(last), Inner, p.conditions[k])
        && NewlyEvaluable(p, p.conditions[k], SetOf(Selectors(result.value)), last)
        && forall j :: 0 <= j < k ==> !NewlyEvaluable(p, p.conditions[j], SetOf(Selectors(result.value)), last)
  {
    if result.None? then Some(Selector(last))
    else
      match FirstNewly(p, SetOf(Selectors(result.value)), last, 0)
      case None => None
      case Some(k) => Some(Join(result.value, Selector(last), Inner, p.conditions[k]))
  }

  /** The candidate a round commits, and its position in the remaining list. */
  datatype Candidate = Candidate(position: nat, join: Source)

  function Trial(p: Planning, result: Option<Source>, remaining: seq<string>, i: nat): Option<Source>
    requires i < |remaining|
  {
    BuildJoin(p, result, remaining[i])
  }

  /** The candidate loop of one round, from position `i` on: skip candidates
      with no join condition, keep the first one of strictly minimal cost. */
  function Choose(p: Planning, result: Option<Source>, remaining: seq<string>, i: nat, best: Option<Candidate>)
    : (r: Option<Candidate>)
    requires i <= |remaining|
    requires best.Some? ==> best.value.position < i && Trial(p, result, remaining, best.value.position) == Some(best.value.join)
    requires best.Some? ==> forall j :: 0 <= j < i && Trial(p, result, remaining, j).Some? ==>
      LessEq(p.cost(best.value.join), p.cost(Trial(p, result, remaining, j).value))
    requires best.Some? ==> forall j :: 0 <= j < best.value.position && Trial(p, result, remaining, j).Some? ==>
      Less(p.cost(best.value.join), p.cost(Trial(p, result, remaining, j).value))
    requires best.None? ==> forall j :: 0 <= j < i ==> Trial(p, result, remaining, j).None?
    ensures r.None? <==> forall j :: 0 <= j < |remaining| ==> Trial(p, result, remaining, j).None?
    ensures r.Some? ==> r.value.position < |remaining| && Trial(p, result, remaining, r.value.position) == Some(r.value.join)
    ensures r.Some? ==> forall j :: 0 <= j < |remaining| && Trial(p, result, remaining, j).Some? ==>
      LessEq(p.cost(r.value.join), p.cost(Trial(p, result, remaining, j).value))
    ensures r.Some? ==> forall j :: 0 <= j < r.value.position && Trial(p, result, remaining, j).Some? ==>
      Less(p.cost(r.value.join), p.cost(Trial(p, result, remaining, j).value))
    decreases |remaining| - i
  {
    if i == |remaining| then best
    else
      var t := Trial(p, result, remaining, i);
      if t.Some? && (best.None? || Less(p.cost(t.value), p.cost(best.value.join))) then
        ChooseStep(p, result, remaining, i, best);
        Choose(p, result, remaining, i + 1, Some(Candidate(i, t.value)))
      else
        ChooseSkip(p, result, remaining, i, best);
        Choose(p, result, remaining, i + 1, best)
  }

  /** Skipping a candidate with no join, or one no cheaper than the best so
      far, keeps the loop's invariant. */
  lemma ChooseSkip(p: Planning, result: Option<Source>, remaining: seq<string>, i: nat, best: Option<Candidate>)
    requires i < |remaining|
    requires Trial(p, result, remaining, i).Some? ==>
      best.Some? && !Less(p.cost(Trial(p, result, remaining, i).value), p.cost(best.value.join))
    requires best.Some? ==> forall j :: 0 <= j < i && Trial(p, result, remaining, j).Some? ==>
      LessEq(p.cost(best.value.join), p.cost(Trial(p, result, remaining, j).value))
    requires best.None? ==> forall j :: 0 <= j < i ==> Trial(p, result, remaining, j).None?
    ensures best.Some? ==> forall j :: 0 <= j < i + 1 && Trial(p, result, remaining, j).Some? ==>
      LessEq(p.cost(best.value.join), p.cost(Trial(p, result, remaining, j).value))
    ensures best.None? ==> forall j :: 0 <= j < i + 1 ==> Trial(p, result, remaining, j).None?
  {
  }

  /** Taking a strictly cheaper candidate keeps the loop's invariant. */
  lemma ChooseStep(p: Planning, result: Option<Source>, remaining: seq<string>, i: nat, best: Option<Candidate>)
    requires i < |remaining| && Trial(p, result, remaining, i).Some?
    requires best.None? || Less(p.cost(Trial(p, result, remaining, i).value), p.cost(best.value.join))
    requires best.Some? ==> forall j :: 0 <= j < i && Trial(p, result, remaining, j).Some? ==>
      LessEq(p.cost(best.value.join), p.cost(Trial(p, result, remaining, j).value))
    requires best.None? ==> forall j :: 0 <= j < i ==> Trial(p, result, remaining, j).None?
    ensures forall j :: 0 <= j < i && Trial(p, result, remaining, j).Some? ==>
      Less(p.cost(Trial(p, result, remaining, i).value), p.cost(Trial(p, result, remaining, j).value))
    ensures forall j :: 0 <= j < i + 1 && Trial(p, result, remaining, j).Some? ==>
      LessEq(p.cost(Trial(p, result, remaining, i).value), p.cost(Trial(p, result, remaining, j).value))
  {
    var c := p.cost(Trial(p, result, remaining, i).value);
    LessIsStrictTotalOrder(c, c, c);
    forall j | 0 <= j < i && Trial(p, result, remaining, j).Some?
      ensures Less(c, p.cost(Trial(p, result, remaining, j).value))
    {
      var cj := p.cost(Trial(p, result, remaining, j).value);
      LessIsStrictTotalOrder(c, p.cost(best.value.join), cj);
      LessIsStrictTotalOrder(p.cost(best.value.join), cj, c);
    }
  }

  /** A tree `buildJoin` can produce: a selector, or an inner join of such a
      tree with one more selector on the right. */
  predicate LeftDeep(s: Source) {
    match s
    case Selector(_) => true
    case Join(l, r, t, _) => r.Selector? && t == Inner && LeftDeep(l)
  }

  /** Every join node is exactly what `buildJoin` makes of its left subtree
      and its right selector. */
  predicate WellJoined(p: Planning, s: Source) {
    match s
    case Selector(_) => true
    case Join(l, r, _, _) => r.Selector? && BuildJoin(p, Some(l), r.name) == Some(s) && WellJoined(p, l)
  }

  /** `sources.remove(bestIndex)`: the other selectors keep their order. */
  function Remove(s: seq<string>, i: nat): (r: seq<string>)
    requires i < |s|
    ensures multiset(r) + multiset{s[i]} == multiset(s)
    ensures |r| == |s| - 1
    ensures forall j :: 0 <= j < i ==> r[j] == s[j]
    ensures forall j :: i <= j < |r| ==> r[j] == s[j + 1]
  {
    assert s == s[..i] + [s[i]] + s[i + 1..];
    s[..i] + s[i + 1..]
  }

  function LeavesOf(result: Option<Source>): seq<string> {
    if result.Some? then Selectors(result.value) else []
  }

  /** A planner state with selectors left over, none of which any condition
      connects to the tree built so far. */
  ghost predicate Stuck(p: Planning, t: Source, rest: seq<string>) {
    && rest != []
    && LeftDeep(t) && WellJoined(p, t)
    && forall i :: 0 <= i < |rest| ==> BuildJoin(p, Some(t), rest[i]).None?
  }

  /** The rounds of the greedy loop: each round removes exactly one selector
      and makes it the right leaf of the tree. A round with no joinable
      candidate is the null dereference of `best.prepare` in `QueryImpl`,
      and it is the only way the loop fails. */
  function Greedy(p: Planning, result: Option<Source>, remaining: seq<string>): (r: Result<Source, QueryError>)
    requires result.Some? || remaining != []
    requires result.Some? ==> LeftDeep(result.value) && WellJoined(p, result.value)
    ensures r.Success? ==> multiset(Selectors(r.value)) == multiset(LeavesOf(result)) + multiset(remaining)
    ensures r.Success? ==> LeftDeep(r.value) && WellJoined(p, r.value)
    ensures r.Failure? ==> r.error == NoJoinCondition
    ensures r.Failure? ==> exists t: Source, rest: seq<string> ::
      Stuck(p, t, rest) && multiset(Selectors(t)) + multiset(rest) == multiset(LeavesOf(result)) + multiset(remaining)
    decreases |remaining|
  {
    if remaining == [] then Success(result.value)
    else
      match Choose(p, result, remaining, 0, None)
      case None =>
        StuckHere(p, result, remaining);
        Failure(NoJoinCondition)
      case Some(c) =>
        CommitKeepsShape(p, result, remaining, c);
        var r := Greedy(p, Some(c.join), Remove(remaining, c.position));
        if r.Failure? then StuckLater(p, result, remaining, c, r); r else r
  }

  /** A round without a candidate: the tree so far is stuck. */
  lemma StuckHere(p: Planning, result: Option<Source>, remaining: seq<string>)
    requires remaining != []
    requires result.Some? ==> LeftDeep(result.value) && WellJoined(p, result.value)
    requires Choose(p, result, remaining, 0, None).None?
    ensures result.Some? && Stuck(p, result.value, remaining)
    ensures multiset(Selectors(result.value)) + multiset(remaining) == multiset(LeavesOf(result)) + multiset(remaining)
  {
    assert Trial(p, result, remaining, 0).None?;
    forall i | 0 <= i < |remaining| ensures BuildJoin(p, result, remaining[i]).None? {
      assert Trial(p, result, remaining, i).None?;
    }
  }

  /** A failure in a later round is a stuck state reachable from this one. */
  lemma StuckLater(p: Planning, result: Option<Source>, remaining: seq<string>, c: Candidate, r: Result<Source, QueryError>)
    requires c.position < |remaining|
    requires multiset(Selectors(c.join)) == multiset(LeavesOf(result)) + multiset{remaining[c.position]}
    requires r.Failure? ==> exists t: Source, rest: seq<string> ::
      Stuck(p, t, rest)
      && multiset(Selectors(t)) + multiset(rest) == multiset(LeavesOf(Some(c.join))) + multiset(Remove(remaining, c.position))
    requires r.Failure?
    ensures exists t: Source, rest: seq<string> ::
      Stuck(p, t, rest) && multiset(Selectors(t)) + multiset(rest) == multiset(LeavesOf(result)) + multiset(remaining)
  {
    var t: Source, rest: seq<string> :| Stuck(p, t, rest)
      && multiset(Selectors(t)) + multiset(rest) == multiset(LeavesOf(Some(c.join))) + multiset(Remove(remaining, c.position));
    assert multiset(Selectors(t)) + multiset(rest) == multiset(LeavesOf(result)) + multiset(remaining);
  }

  /** The committed candidate is the old tree plus one selector on the right. */
  lemma CommitKeepsShape(p: Planning, result: Option<Source>, remaining: seq<string>, c: Candidate)
    requires result.Some? ==> LeftDeep(result.value) && WellJoined(p, result.value)
    requires c.position < |remaining| && Trial(p, result, remaining, c.position) == Some(c.join)
    ensures LeftDeep(c.join) && WellJoined(p, c.join)
    ensures multiset(Selectors(c.join)) == multiset(LeavesOf(result)) + multiset{remaining[c.position]}
  {
    if result.Some? {
      var k :| 0 <= k < |p.conditions|
        && c.join == Join(result.value, Selector(remaining[c.position]), Inner, p.conditions[k]);
    }
  }

  /** The greedy branch of `prepare` (two or more inner-join selectors). */
  function PlanJoin(p: Planning, sources: seq<string>): (r: Result<Source, QueryError>)
    requires |sources| >= 2
    ensures r.Success? ==> multiset(Selectors(r.value)) == multiset(sources)
    ensures r.Success? ==> LeftDeep(r.value) && WellJoined(p, r.value)
    ensures r.Failure? ==> r.error == NoJoinCondition
    ensures r.Failure? ==> exists t: Source, rest: seq<string> ::
      Stuck(p, t, rest) && multiset(Selectors(t)) + multiset(rest) == multiset(sources)
  {
    assert multiset(LeavesOf(None)) + multiset(sources) == multiset(sources);
    Greedy(p, None, sources)
  }

  // ---------------------------------------------------------------------
  // Each round keeps the cheapest candidate

  /** The selectors of `s` not yet joined, in their original order. */
  function Unjoined(s: seq<string>, joined: set<string>): (r: seq<string>)
    ensures forall x :: x in r <==> x in s && x !in joined
  {
    if s == [] then []
    else (if s[0] in joined then [] else [s[0]]) + Unjoined(s[1..], joined)
  }

  lemma {:induction false} UnjoinedNothing(s: seq<string>)
    ensures Unjoined(s, {}) == s
  {
    if s != [] {
      UnjoinedNothing(s[1..]);
    }
  }

  lemma {:induction false} UnjoinedUnion(s: seq<string>, a: set<string>, b: set<string>)
    ensures Unjoined(s, a + b) == Unjoined(Unjoined(s, a), b)
  {
    if s != [] {
      UnjoinedUnion(s[1..], a, b);
      var u := Unjoined(s, a);
      if s[0] in a {
        assert u == Unjoined(s[1..], a);
      } else {
        assert u == [s[0]] + Unjoined(s[1..], a);
        assert u[0] == s[0] && u[1..] == Unjoined(s[1..], a);
        assert Unjoined(u, b) == (if s[0] in b then [] else [s[0]]) + Unjoined(u[1..], b);
      }
    }
  }

  /** The tail of a list without repeats has none, and lacks the head. */
  lemma DistinctTail(s: seq<string>)
    requires Reg.Distinct(s) && s != []
    ensures Reg.Distinct(s[1..]) && s[0] !in s[1..]
  {
    forall i, j | 0 <= i < j < |s[1..]| ensures s[1..][i] != s[1..][j] {
      assert s[1..][i] == s[i + 1] && s[1..][j] == s[j + 1];
    }
    forall k | 0 <= k < |s[1..]| ensures s[1..][k] != s[0] {
      assert s[1..][k] == s[k + 1];
    }
  }

  lemma {:induction false} UnjoinedDistinct(s: seq<string>, a: set<string>)
    requires Reg.Distinct(s)
    ensures Reg.Distinct(Unjoined(s, a))
  {
    if s != [] {
      DistinctTail(s);
      UnjoinedDistinct(s[1..], a);
      var rest := Unjoined(s[1..], a);
      if s[0] !in a {
        var u := [s[0]] + rest;
        forall i, j | 0 <= i < j < |u| ensures u[i] != u[j] {
          if i == 0 {
            assert u[j] == rest[j - 1] && u[j] in rest;
          } else {
            assert u[i] == rest[i - 1] && u[j] == rest[j - 1];
          }
        }
      }
    }
  }

  /** In a list without repeats, dropping one name is removing its position. */
  lemma {:induction false} UnjoinedOne(s: seq<string>, i: nat)
    requires Reg.Distinct(s) && i < |s|
    ensures Unjoined(s, {s[i]}) == Remove(s, i)
  {
    DistinctTail(s);
    if i == 0 {
      UnjoinedOutside(s[1..], {s[0]});
      assert Remove(s, 0) == s[1..];
    } else {
      var x := s[i];
      assert x == s[1..][i - 1];
      UnjoinedOne(s[1..], i - 1);
      assert s[0] != x;
      RemoveCons(s, i);
    }
  }

  lemma RemoveCons(s: seq<string>, i: nat)
    requires 0 < i < |s|
    ensures Remove(s, i) == [s[0]] + Remove(s[1..], i - 1)
  {
    assert s[1..][..i - 1] == s[1..i] && s[1..][i..] == s[i + 1..];
    assert s[..i] == [s[0]] + s[1..i];
  }

  /** Dropping names a list does not contain leaves it unchanged. */
  lemma {:induction false} UnjoinedOutside(s: seq<string>, a: set<string>)
    requires forall x :: x in s ==> x !in a
    ensures Unjoined(s, a) == s
  {
    if s != [] {
      assert forall x :: x in s[1..] ==> x in s;
      UnjoinedOutside(s[1..], a);
    }
  }

  /** The trees the greedy loop can produce from `sources`, round by round:
      the first leaf is the candidate `Choose` keeps when nothing is joined,
      and each join is the candidate `Choose` keeps for its left subtree
      and the selectors not yet joined, in their original order. */
  ghost predicate GreedyTree(p: Planning, s: Source, sources: seq<string>)
    decreases s
  {
    match s
    case Selector(_) =>
      var c := Choose(p, None, sources, 0, None);
      c.Some? && c.value.join == s
    case Join(l, _, _, _) =>
      && GreedyTree(p, l, sources)
      && var c := Choose(p, Some(l), Unjoined(sources, SetOf(Selectors(l))), 0, None);
         c.Some? && c.value.join == s
  }

  /** The committed candidate adds exactly its selector to the joined set,
      on the right of the old tree. */
  lemma CommitAdds(p: Planning, result: Option<Source>, remaining: seq<string>, c: Candidate)
    requires c.position < |remaining| && Trial(p, result, remaining, c.position) == Some(c.join)
    ensures SetOf(Selectors(c.join)) == SetOf(LeavesOf(result)) + {remaining[c.position]}
    ensures result.None? ==> c.join == Selector(remaining[c.position])
    ensures result.Some? ==> c.join.Join? && c.join.left == result.value
  {
    var x := remaining[c.position];
    if result.Some? {
      var k :| 0 <= k < |p.conditions| && c.join == Join(result.value, Selector(x), Inner, p.conditions[k]);
      assert Selectors(c.join) == Selectors(result.value) + [x];
    }
  }

  /** One round extends a greedy tree by `Choose`'s pick. */
  lemma CommitIsGreedy(p: Planning, result: Option<Source>, remaining: seq<string>, sources: seq<string>)
    requires result.Some? ==> GreedyTree(p, result.value, sources)
    requires remaining == Unjoined(sources, SetOf(LeavesOf(result)))
    requires Choose(p, result, remaining, 0, None).Some?
    ensures GreedyTree(p, Choose(p, result, remaining, 0, None).value.join, sources)
  {
    var c := Choose(p, result, remaining, 0, None).value;
    CommitAdds(p, result, remaining, c);
    if result.None? {
      UnjoinedNothing(sources);
      assert SetOf(LeavesOf(result)) == {};
    }
  }

  /** What is left after a round is what is not yet joined, in order. */
  lemma CommitLeavesRest(p: Planning, result: Option<Source>, remaining: seq<string>, sources: seq<string>, c: Candidate)
    requires Reg.Distinct(sources)
    requires remaining == Unjoined(sources, SetOf(LeavesOf(result)))
    requires c.position < |remaining| && Trial(p, result, remaining, c.position) == Some(c.join)
    ensures Remove(remaining, c.position) == Unjoined(sources, SetOf(LeavesOf(Some(c.join))))
  {
    var x := remaining[c.position];
    CommitAdds(p, result, remaining, c);
    UnjoinedUnion(sources, SetOf(LeavesOf(result)), {x});
    UnjoinedDistinct(sources, SetOf(LeavesOf(result)));
    UnjoinedOne(remaining, c.position);
  }

  /** Every round of a successful greedy run commits the earliest
      strict-minimum-cost candidate among the selectors still waiting. */
  lemma {:induction false} GreedyFollowsChoose(p: Planning, result: Option<Source>, remaining: seq<string>,
                                               sources: seq<string>)
    requires Reg.Distinct(sources)
    requires result.Some? || remaining != []
    requires result.Some? ==> LeftDeep(result.value) && WellJoined(p, result.value) && GreedyTree(p, result.value, sources)
    requires remaining == Unjoined(sources, SetOf(LeavesOf(result)))
    requires Greedy(p, result, remaining).Success?
    ensures GreedyTree(p, Greedy(p, result, remaining).value, sources)
    decreases |remaining|
  {
    if remaining != [] {
      var c := Choose(p, result, remaining, 0, None).value;
      CommitKeepsShape(p, result, remaining, c);
      CommitIsGreedy(p, result, remaining, sources);
      CommitLeavesRest(p, result, remaining, sources, c);
      assert Greedy(p, result, remaining) == Greedy(p, Some(c.join), Remove(remaining, c.position));
      GreedyFollowsChoose(p, Some(c.join), Remove(remaining, c.position), sources);
    }
  }

  /** The failure half: a failed greedy run got stuck at a tree it built
      itself, round by round from `Choose`'s picks, with every selector not
      in that tree left over. */
  lemma {:induction false} GreedyFailsWhenStuck(p: Planning, result: Option<Source>, remaining: seq<string>,
                                                sources: seq<string>)
    requires Reg.Distinct(sources)
    requires result.Some? || remaining != []
    requires result.Some? ==> LeftDeep(result.value) && WellJoined(p, result.value) && GreedyTree(p, result.value, sources)
    requires remaining == Unjoined(sources, SetOf(LeavesOf(result)))
    requires Greedy(p, result, remaining).Failure?
    ensures exists t :: GreedyTree(p, t, sources) && Stuck(p, t, Unjoined(sources, SetOf(Selectors(t))))
    decreases |remaining|
  {
    match Choose(p, result, remaining, 0, None)
    case None =>
      StuckHere(p, result, remaining);
      var t := result.value;
      assert GreedyTree(p, t, sources) && Stuck(p, t, Unjoined(sources, SetOf(Selectors(t))));
    case Some(c) =>
      CommitKeepsShape(p, result, remaining, c);
      CommitIsGreedy(p, result, remaining, sources);
      CommitLeavesRest(p, result, remaining, sources, c);
      assert Greedy(p, result, remaining) == Greedy(p, Some(c.join), Remove(remaining, c.position));
      GreedyFailsWhenStuck(p, Some(c.join), Remove(remaining, c.position), sources);
  }

  /** For distinct selector names (as registration guarantees), a planned
      join is built round by round from `Choose`'s picks. */
  lemma PlanJoinFollowsChoose(p: Planning, sources: seq<string>)
    requires |sources| >= 2 && Reg.Distinct(sources)
    requires PlanJoin(p, sources).Success?
    ensures GreedyTree(p, PlanJoin(p, sources).value, sources)
  {
    UnjoinedNothing(sources);
    assert SetOf(LeavesOf(None)) == {};
    GreedyFollowsChoose(p, None, sources, sources);
  }

  /** For distinct selector names, the planner fails only when its own
      greedy rounds reach a tree that no condition joins to any selector
      still waiting. */
  lemma PlanJoinFailsWhenStuck(p: Planning, sources: seq<string>)
    requires |sources| >= 2 && Reg.Distinct(sources)
    requires PlanJoin(p, sources).Failure?
    ensures exists t :: GreedyTree(p, t, sources) && Stuck(p, t, Unjoined(sources, SetOf(Selectors(t))))
  {
    UnjoinedNothing(sources);
    assert SetOf(LeavesOf(None)) == {};
    GreedyFailsWhenStuck(p, None, sources, sources);
  }

  /** In a tree the planner builds, every join condition is evaluable on
      the selectors below its node, and not on the left subtree alone. */
  lemma JoinConditionsBecomeEvaluable(p: Planning, s: Source)
    requires WellJoined(p, s) && s.Join?
    ensures !p.canEvaluate(s.condition, SetOf(Selectors(s.left)))
    ensures p.canEvaluate(s.condition, SetOf(Selectors(s.left)) + {s.right.name})
  {
  }

  /** `late` is never added as a right leaf unless `early` is already in
      the left subtree (the leftmost leaf is not constrained). */
  predicate IntroducedAfter(s: Source, late: string, early: string) {
    match s
    case Selector(_) => true
    case Join(l, r, _, _) =>
      (r.Selector? && r.name == late ==> early in Selectors(l)) && IntroducedAfter(l, late, early)
  }

  /** Three selectors A, B, C with conditions A=B and B=C only: C is never
      added on the right of a tree without B, since the B=C condition is the
      only one C can make newly evaluable. C may still be the first
      selector of the plan, when its trial is the cheapest. */
  lemma {:induction false} ChainJoinOrder(p: Planning, s: Source, ab: JoinCondition, bc: JoinCondition)
    requires p.conditions == [ab, bc]
    requires forall x: set<string> :: p.canEvaluate(ab, x) <==> "A" in x && "B" in x
    requires forall x: set<string> :: p.canEvaluate(bc, x) <==> "B" in x && "C" in x
    requires WellJoined(p, s)
    ensures IntroducedAfter(s, "C", "B")
  {
    match s
    case Selector(_) =>
    case Join(l, r, _, c) =>
      ChainJoinOrder(p, l, ab, bc);
      if r.name == "C" {
        var joined := SetOf(Selectors(l));
        JoinConditionsBecomeEvaluable(p, s);
        assert c == ab || c == bc;
        if c == ab {
          assert "A" in joined + {"C"} && "B" in joined + {"C"};
          assert !("A" in joined && "B" in joined);
        }
        assert "B" in joined;
      }
  }
}

=== FILE: longs.dfy ===
/** Java `long` arithmetic: the 64-bit range, the wrapping `+` of the
    language, and the saturating addition the query engine uses instead. */
module Longs {

  const LONG_MIN: int := -0x8000_0000_0000_0000
  const LONG_MAX: int := 0x7FFF_FFFF_FFFF_FFFF
  const TWO_POW_64: int := 0x1_0000_0000_0000_0000

  /** A value of Java type `long`. */
  type Long = x: int | LONG_MIN <= x <= LONG_MAX

  function Min(x: int, y: int): int { if x <= y then x else y }

  function Max(x: int, y: int): int { if x >= y then x else y }

  /** Java's two's-complement `x + y` on two longs: the exact sum wrapped
      back into the 64-bit range. */
  function WrapSum(x: Long, y: Long): (r: Long)
    ensures (r - (x + y)) % TWO_POW_64 == 0
    ensures LONG_MIN <= x + y <= LONG_MAX <==> r == x + y
  {
    var s := x + y;
    if s > LONG_MAX then s - TWO_POW_64
    else if s < LONG_MIN then s + TWO_POW_64
    else s
  }

  /** `saturatedAdd`: the sum, clamped into the long range (computed in the
      source with big integers, `sum.min(max).max(min)`). */
  function SaturatedAdd(x: Long, y: Long): (r: Long)
    ensures x + y > LONG_MAX ==> r == LONG_MAX
    ensures x + y < LONG_MIN ==> r == LONG_MIN
    ensures LONG_MIN <= x + y <= LONG_MAX ==> r == x + y
  {
    Max(Min(x + y, LONG_MAX), LONG_MIN)
  }

  /** Saturation never wraps round: the two boundary cases of `saturatedAdd`'s
      documentation. */
  lemma SaturatedAddBoundaries()
    ensures SaturatedAdd(LONG_MAX, 1) == LONG_MAX
    ensures SaturatedAdd(LONG_MIN, -1) == LONG_MIN
    ensures WrapSum(LONG_MAX, 1) == LONG_MIN
  {
  }

  /** Saturated and wrapping addition agree exactly when the exact sum fits. */
  lemma SaturatedAddVersusWrap(x: Long, y: Long)
    ensures SaturatedAdd(x, y) == WrapSum(x, y) <==> LONG_MIN <= x + y <= LONG_MAX
  {
  }

  /** The saturated sum is the long closest to the exact sum. */
  lemma SaturatedAddIsClosest(x: Long, y: Long, z: Long)
    ensures Abs(SaturatedAdd(x, y) - (x + y)) <= Abs(z - (x + y))
  {
  }

  function Abs(x: int): nat { if x < 0 then -x else x }
}

=== FILE: query.dfy ===
/** The query object's life cycle: construction, `init`, `copyOf`,
    `optimise`, `prepare`, and the size bookkeeping of `getRows` and
    `getSize`. Each operation returns the next state of the query, or the
    usage error `QueryImpl` throws. */
module QueryModel {
  import opened Wrappers
  import opened Longs
  import opened Costs
  import opened Ast
  import opened Selectors
  import opened IndexSelection
  import opened SortPushDown
  import opened JoinPlanner
  import opened RowIterator
  import opened ResultSize
  import opened UnionRewrite

  /** The fields of a query that the modelled operations read or write. */
  datatype Query = Query(
    statement: string,
    source: Source,
    constraint: Option<Constraint>,
    columns: seq<Column>,
    orderings: Option<seq<Ordering>>,
    bindVariables: BindVariables,
    registry: Registry,
    distinctColumns: seq<bool>,
    limit: Long,
    offset: Long,
    size: Long,
    explain: bool,
    measure: bool,
    distinct: bool,
    traversalEnabled: bool,
    init: bool,
    optimised: bool,
    prepared: bool,
    isSortedByIndex: bool,
    estimatedCost: Cost)

  /** A query as the parser hands it over: Java field defaults, `limit` at
      `Long.MAX_VALUE`, size unknown (-1), traversal enabled. */
  function NewQuery(statement: string, source: Source, constraint: Option<Constraint>,
                    columns: seq<Column>, optimised: bool): (r: Query)
    ensures Wf(r) && r.registry.selectors == [] && r.bindVariables == map[]
    ensures !r.init && !r.prepared && r.optimised == optimised
    ensures r.statement == statement && r.source == source && r.constraint == constraint && r.columns == columns
    ensures r.orderings.None? && r.limit == LONG_MAX && r.offset == 0 && r.size == -1
    ensures !r.explain && !r.measure && !r.distinct && r.traversalEnabled
  {
    Query(statement, source, constraint, columns, None, map[], EmptyRegistry, [],
          LONG_MAX, 0, -1, false, false, false, true, false, optimised, false, false, Finite(0.0))
  }

  ghost predicate Wf(q: Query) {
    Dense(q.registry)
  }

  // ---------------------------------------------------------------------
  // init

  /** `init`: simplify the constraint, register the bind variables the AST
      references and the selectors of the source in visit order, compute
      the distinct-column mask, and set the init flag. The AST walk itself
      is represented by its outcome: `bindNames` and the selector names of
      the source. */
  function Init(q: Query, bindNames: seq<string>, simplify: Constraint -> Constraint): (r: Result<Query, QueryError>)
    requires Wf(q)
    ensures r.Success? <==> Distinct(q.registry.selectors + Ast.Selectors(q.source))
    ensures r.Success? ==>
      && Wf(r.value) && r.value.init
      && r.value.registry.selectors == q.registry.selectors + Ast.Selectors(q.source)
      && r.value.distinctColumns == DistinctColumns(q.columns)
      && r.value.constraint == (if q.constraint.Some? then Some(simplify(q.constraint.value)) else None)
      && r.value.bindVariables == DeclareBindVariables(q.bindVariables, bindNames)
    ensures r.Success? ==>
      r.value == q.(constraint := r.value.constraint, registry := r.value.registry,
                    bindVariables := r.value.bindVariables, distinctColumns := r.value.distinctColumns, init := true)
    ensures r.Failure? ==> r.error.DuplicateSelector?
  {
    var constraint := if q.constraint.Some? then Some(simplify(q.constraint.value)) else None;
    var registry :- Register(q.registry, Ast.Selectors(q.source));
    Success(q.(constraint := constraint,
               registry := registry,
               bindVariables := DeclareBindVariables(q.bindVariables, bindNames),
               distinctColumns := DistinctColumns(q.columns),
               init := true))
  }

  /** `init` does not guard against a second call: the selectors are visited
      again and the first one is reported as a duplicate. */
  lemma InitTwiceFails(q: Query, bindNames: seq<string>, simplify: Constraint -> Constraint)
    requires Wf(q)
    requires Init(q, bindNames, simplify).Success?
    ensures Init(Init(q, bindNames, simplify).value, bindNames, simplify).Failure?
  {
    var q1 := Init(q, bindNames, simplify).value;
    var all := q1.registry.selectors + Ast.Selectors(q1.source);
    var first := |q.registry.selectors|;
    assert all[first] == all[|q1.registry.selectors| + 0];
  }

  // ---------------------------------------------------------------------
  // copyOf and the union rewrite

  /** `copyOf`: refused once the query is initialised; otherwise a fresh
      query sharing statement, source, constraint and columns, with the
      explain and distinct flags, and every other field at its default
      (orderings, limit and offset are not carried over). */
  function CopyOf(q: Query, optimised: bool): (r: Result<Query, QueryError>)
    ensures r.Failure? <==> q.init
    ensures r.Failure? ==> r.error == ClonedAfterInit
    ensures r.Success? ==>
      var c := r.value;
      && !c.init && !c.prepared && c.optimised == optimised && Wf(c)
      && c.statement == q.statement && c.source == q.source && c.constraint == q.constraint
      && c.columns == q.columns && c.explain == q.explain && c.distinct == q.distinct
      && c.orderings.None? && c.limit == LONG_MAX && c.offset == 0 && c.size == -1
  {
    if q.init then Failure(ClonedAfterInit)
    else Success(NewQuery(q.statement, q.source, q.constraint, q.columns, optimised)
                   .(explain := q.explain, distinct := q.distinct))
  }

  /** A copy starts with an empty selector registry, so it can be
      initialised exactly when the source's selector names are distinct,
      whatever the original's registry holds; once the original has been
      initialised it can no longer be copied. */
  lemma CopyThenInit(q: Query, bindNames: seq<string>, simplify: Constraint -> Constraint)
    requires !q.init
    ensures Init(CopyOf(q, false).value, bindNames, simplify).Success? <==> Distinct(Ast.Selectors(q.source))
    ensures Wf(q) && Init(q, bindNames, simplify).Success? ==>
      CopyOf(Init(q, bindNames, simplify).value, false) == Failure(ClonedAfterInit)
  {
    assert EmptyRegistry.selectors + Ast.Selectors(q.source) == Ast.Selectors(q.source);
  }

  /** What `optimise` returns: the query itself, or a union of queries. */
  datatype Plan = Single(query: Query) | Union(left: Plan, right: Plan, explain: bool)

  function Branches(p: Plan): seq<Query> {
    match p
    case Single(q) => [q]
    case Union(l, r, _) => Branches(l) + Branches(r)
  }

  /** One union branch: an optimised copy whose constraint is the disjunct
      and whose statement has the disjunct spliced in. */
  function Branch(q: Query, c: Constraint, show: Constraint -> string): (r: Result<Query, QueryError>)
    ensures r.Success? <==> !q.init && RecomposeStatement(q.statement, Some(show(c))).Success?
    ensures r.Failure? ==> r.error == if q.init then ClonedAfterInit else StatementIndexOutOfBounds
    ensures r.Success? ==>
      var b := r.value;
      && b.constraint == Some(c) && b.statement == RecomposeStatement(q.statement, Some(show(c))).value
      && CopyOf(q, true) == Success(b.(constraint := q.constraint, statement := q.statement))
  {
    var copy :- CopyOf(q, true);
    var statement :- RecomposeStatement(copy.statement, Some(show(c)));
    Success(copy.(constraint := Some(c), statement := statement))
  }

  /** Whether a branch can be built does not depend on the disjunct: a copy
      is refused for an initialised query, and the statement splice fails
      for a short statement without " WHERE ", whatever the text. */
  lemma BranchFailsAlike(q: Query, c: Constraint, d: Constraint, show: Constraint -> string)
    ensures Branch(q, c, show).Failure? <==> Branch(q, d, show).Failure?
    ensures Branch(q, c, show).Failure? ==> Branch(q, c, show).error == Branch(q, d, show).error
  {
  }

  /** The loop of `optimise` over the branches, one per disjunct in
      iteration order: the last branch becomes the left operand of a union
      whose right operand is the chain built from the earlier ones. The
      first failing copy ends the loop, and every branch fails alike. */
  function Link(bs: seq<Result<Query, QueryError>>, explain: bool): (r: Result<Plan, QueryError>)
    requires |bs| > 0
    requires forall i :: 0 <= i < |bs| ==> (bs[i].Failure? <==> bs[0].Failure?)
    ensures r.Success? ==> |Branches(r.value)| == |bs|
    ensures r.Success? ==> forall i :: 0 <= i < |bs| ==> bs[|bs| - 1 - i] == Success(Branches(r.value)[i])
    ensures r.Failure? <==> bs[0].Failure?
    ensures r.Failure? ==> r.error == bs[|bs| - 1].error
  {
    var n := |bs|;
    var b := bs[n - 1];
    if b.Failure? then Failure(b.error)
    else if n == 1 then
      assert Branches(Single(b.value)) == [b.value];
      Success(Single(b.value))
    else
      var prefix := bs[..n - 1];
      assert forall i :: 0 <= i < |prefix| ==> prefix[i] == bs[i];
      var chain := Link(prefix, explain);
      LinkExtends(bs, explain, b.value, chain.value);
      Success(Union(Single(b.value), chain.value, explain))
  }

  /** Putting the last branch in front of the chain of the earlier ones
      lists the branches from the last to the first. */
  lemma LinkExtends(bs: seq<Result<Query, QueryError>>, explain: bool, b: Query, right: Plan)
    requires |bs| > 1
    requires bs[|bs| - 1] == Success(b)
    requires |Branches(right)| == |bs| - 1
    requires forall i :: 0 <= i < |bs| - 1 ==> bs[..|bs| - 1][|bs| - 2 - i] == Success(Branches(right)[i])
    ensures |Branches(Union(Single(b), right, explain))| == |bs|
    ensures forall i :: 0 <= i < |bs| ==> bs[|bs| - 1 - i] == Success(Branches(Union(Single(b), right, explain))[i])
  {
    var n := |bs|;
    var prefix := bs[..n - 1];
    var u := Union(Single(b), right, explain);
    assert Branches(u) == [b] + Branches(right);
    forall i | 0 <= i < n
      ensures bs[n - 1 - i] == Success(Branches(u)[i])
    {
      if i > 0 {
        assert Branches(u)[i] == Branches(right)[i - 1];
        assert prefix[n - 2 - (i - 1)] == bs[n - 1 - i];
      }
    }
  }

  /** The union chain of `optimise`: one branch per disjunct, the last
      disjunct's first, failing exactly when the first copy fails. */
  function Chain(q: Query, disjuncts: seq<Constraint>, show: Constraint -> string): (r: Result<Plan, QueryError>)
    requires |disjuncts| > 0
    ensures r.Success? ==> |Branches(r.value)| == |disjuncts|
    ensures r.Success? ==> forall i :: 0 <= i < |disjuncts| ==>
      Branch(q, disjuncts[|disjuncts| - 1 - i], show) == Success(Branches(r.value)[i])
    ensures r.Failure? <==> Branch(q, disjuncts[0], show).Failure?
    ensures r.Failure? ==> r.error == Branch(q, disjuncts[0], show).error
  {
    var bs := BranchResults(q, disjuncts, show);
    var r := Link(bs, q.explain);
    LinkedBranches(q, disjuncts, show, bs, r);
    r
  }

  /** The branch of every disjunct, in iteration order; they all fail or
      all succeed. */
  function BranchResults(q: Query, disjuncts: seq<Constraint>, show: Constraint -> string)
    : (bs: seq<Result<Query, QueryError>>)
    requires |disjuncts| > 0
    ensures |bs| == |disjuncts|
    ensures forall i :: 0 <= i < |disjuncts| ==> bs[i] == Branch(q, disjuncts[i], show)
    ensures forall i :: 0 <= i < |bs| ==> (bs[i].Failure? <==> bs[0].Failure?)
  {
    var bs := seq(|disjuncts|, i requires 0 <= i < |disjuncts| => Branch(q, disjuncts[i], show));
    forall i | 0 <= i < |disjuncts|
      ensures bs[i].Failure? <==> bs[0].Failure?
    {
      BranchFailsAlike(q, disjuncts[i], disjuncts[0], show);
    }
    bs
  }

  /** What `Link` says of the branch results, restated per disjunct. */
  lemma LinkedBranches(q: Query, disjuncts: seq<Constraint>, show: Constraint -> string,
                       bs: seq<Result<Query, QueryError>>, r: Result<Plan, QueryError>)
    requires |disjuncts| > 0 && |bs| == |disjuncts|
    requires forall i :: 0 <= i < |disjuncts| ==> bs[i] == Branch(q, disjuncts[i], show)
    requires r.Success? ==> |Branches(r.value)| == |bs|
    requires r.Success? ==> forall i :: 0 <= i < |bs| ==> bs[|bs| - 1 - i] == Success(Branches(r.value)[i])
    requires r.Failure? <==> bs[0].Failure?
    requires r.Failure? ==> bs[|bs| - 1] == Failure(r.error)
    ensures r.Success? ==> forall i :: 0 <= i < |disjuncts| ==>
      Branch(q, disjuncts[|disjuncts| - 1 - i], show) == Success(Branches(r.value)[i])
    ensures r.Failure? <==> Branch(q, disjuncts[0], show).Failure?
    ensures r.Failure? ==> r.error == Branch(q, disjuncts[0], show).error
  {
    var n := |disjuncts|;
    assert bs[0] == Branch(q, disjuncts[0], show);
    if r.Success? {
      forall i | 0 <= i < n
        ensures Branch(q, disjuncts[n - 1 - i], show) == Success(Branches(r.value)[i])
      {
        assert bs[n - 1 - i] == Branch(q, disjuncts[n - 1 - i], show);
      }
    } else {
      assert bs[n - 1] == Branch(q, disjuncts[n - 1], show);
      BranchFailsAlike(q, disjuncts[n - 1], disjuncts[0], show);
    }
  }

  /** `optimise`: no rewrite without a constraint or when the constraint
      splits into at most one disjunct (`disjuncts` is `simplifyForUnion`'s
      set, in iteration order); otherwise one branch per disjunct. */
  function Optimise(q: Query, disjuncts: seq<Constraint>, show: Constraint -> string): (r: Result<Plan, QueryError>)
    ensures q.constraint.None? || |disjuncts| <= 1 ==> r == Success(Single(q))
    ensures q.constraint.Some? && |disjuncts| > 1 && r.Success? ==>
      && |Branches(r.value)| == |disjuncts|
      && forall i :: 0 <= i < |disjuncts| ==>
           var b := Branches(r.value)[i];
           && b.constraint == Some(disjuncts[|disjuncts| - 1 - i])
           && RecomposeStatement(q.statement, Some(show(disjuncts[|disjuncts| - 1 - i]))) == Success(b.statement)
           && !b.init && b.optimised && b.source == q.source && b.columns == q.columns
    ensures r.Failure? <==>
      && q.constraint.Some? && |disjuncts| > 1
      && (q.init || (|q.statement| < 6 && forall j :: 0 <= j <= |q.statement| ==> !Occurs(Upper(q.statement), WHERE, j)))
    ensures r.Failure? ==> r.error == if q.init then ClonedAfterInit else StatementIndexOutOfBounds
  {
    if q.constraint.None? || |disjuncts| <= 1 then Success(Single(q))
    else Chain(q, disjuncts, show)
  }

  /** An initialised query with a splittable constraint cannot be rewritten:
      the first copy is refused. */
  lemma OptimiseAfterInitFails(q: Query, disjuncts: seq<Constraint>, show: Constraint -> string)
    requires q.init && q.constraint.Some? && |disjuncts| > 1
    ensures Optimise(q, disjuncts, show) == Failure(ClonedAfterInit)
  {
  }

  /** `getCostOverhead`: the union heuristic on the constraint, which must
      be present (`checkNotNull`). */
  function CostOverheadOf(q: Query): (r: Result<real, QueryError>)
    ensures r.Failure? <==> q.constraint.None?
    ensures r.Success? ==> (r.value == DOUBLE_MAX <==> MixedOr(q.constraint.value))
  {
    if q.constraint.None? then Failure(NullConstraint) else Success(CostOverhead(q.constraint.value))
  }

  // ---------------------------------------------------------------------
  // prepare

  /** `prepare`: nothing when already prepared; with at most one inner-join
      selector, the selector's best plan gives the cost and decides the
      sort push-down; otherwise the greedy planner rebuilds the source and
      the cost is the final join's. `innerSelectors` is the inner-join
      selector list of the source, `indexes` and `traversalCost` what the
      index providers report for the single selector, and `firstPlan` the
      index plan the first registered selector ends up with after a join is
      planned. */
  function Prepare(q: Query, innerSelectors: seq<string>, p: Planning,
                   indexes: seq<QueryIndex>, traversalCost: Cost, firstPlan: Option<IndexPlan>): (r: Result<Query, QueryError>)
    ensures q.prepared ==> r == Success(q)
    ensures r.Success? ==> r.value.prepared
    ensures r.Success? ==>
      r.value == q.(prepared := true, source := r.value.source, estimatedCost := r.value.estimatedCost,
                    isSortedByIndex := r.value.isSortedByIndex)
    ensures !q.prepared && |innerSelectors| <= 1 ==>
      var sp := BestSelectorPlan(indexes, q.limit, q.offset, q.traversalEnabled, traversalCost);
      && r.Success? && r.value.source == q.source
      && r.value.estimatedCost == sp.cost
      && r.value.isSortedByIndex == SortableByIndex(q.orderings, |q.registry.selectors|, sp.plan)
      && (q.traversalEnabled ==> LessEq(r.value.estimatedCost, traversalCost))
      && (r.value.isSortedByIndex ==> q.orderings.Some? && |q.registry.selectors| == 1)
    ensures !q.prepared && |innerSelectors| > 1 ==> (r.Failure? <==> PlanJoin(p, innerSelectors).Failure?)
    ensures !q.prepared && |innerSelectors| > 1 && r.Success? ==>
      && multiset(Ast.Selectors(r.value.source)) == multiset(innerSelectors)
      && LeftDeep(r.value.source) && WellJoined(p, r.value.source)
      && (Distinct(innerSelectors) ==> GreedyTree(p, r.value.source, innerSelectors))
      && r.value.estimatedCost == p.cost(r.value.source)
      && r.value.isSortedByIndex == SortableByIndex(q.orderings, |q.registry.selectors|, firstPlan)
      && (|q.registry.selectors| != 1 ==> !r.value.isSortedByIndex)
    ensures r.Failure? ==> r.error == NoJoinCondition
    ensures r.Failure? ==> exists t: Source, rest: seq<string> ::
      Stuck(p, t, rest) && multiset(Ast.Selectors(t)) + multiset(rest) == multiset(innerSelectors)
    ensures r.Failure? && Distinct(innerSelectors) ==>
      exists t :: GreedyTree(p, t, innerSelectors) && Stuck(p, t, Unjoined(innerSelectors, SetOf(Ast.Selectors(t))))
  {
    if q.prepared then Success(q)
    else if |innerSelectors| <= 1 then Success(PrepareSelector(q, indexes, traversalCost))
    else PrepareJoin(q, innerSelectors, p, firstPlan)
  }

  /** The single-selector case of `prepare`. */
  function PrepareSelector(q: Query, indexes: seq<QueryIndex>, traversalCost: Cost): (r: Query)
    ensures var sp := BestSelectorPlan(indexes, q.limit, q.offset, q.traversalEnabled, traversalCost);
      && r == q.(prepared := true, estimatedCost := r.estimatedCost, isSortedByIndex := r.isSortedByIndex)
      && r.estimatedCost == sp.cost
      && r.isSortedByIndex == SortableByIndex(q.orderings, |q.registry.selectors|, sp.plan)
      && (q.traversalEnabled ==> LessEq(r.estimatedCost, traversalCost))
      && (r.isSortedByIndex ==> q.orderings.Some? && |q.registry.selectors| == 1)
  {
    var sp := BestSelectorPlan(indexes, q.limit, q.offset, q.traversalEnabled, traversalCost);
    q.(prepared := true, estimatedCost := sp.cost,
       isSortedByIndex := SortableByIndex(q.orderings, |q.registry.selectors|, sp.plan))
  }

  /** The join case of `prepare`: the greedy planner's tree replaces the
      source. */
  function PrepareJoin(q: Query, innerSelectors: seq<string>, p: Planning, firstPlan: Option<IndexPlan>)
    : (r: Result<Query, QueryError>)
    requires |innerSelectors| > 1
    ensures r.Failure? <==> PlanJoin(p, innerSelectors).Failure?
    ensures r.Success? ==>
      && r.value == q.(prepared := true, source := r.value.source, estimatedCost := r.value.estimatedCost,
                       isSortedByIndex := r.value.isSortedByIndex)
      && multiset(Ast.Selectors(r.value.source)) == multiset(innerSelectors)
      && LeftDeep(r.value.source) && WellJoined(p, r.value.source)
      && (Distinct(innerSelectors) ==> GreedyTree(p, r.value.source, innerSelectors))
      && r.value.estimatedCost == p.cost(r.value.source)
      && r.value.isSortedByIndex == SortableByIndex(q.orderings, |q.registry.selectors|, firstPlan)
      && (|q.registry.selectors| != 1 ==> !r.value.isSortedByIndex)
    ensures r.Failure? ==> r.error == NoJoinCondition
    ensures r.Failure? ==> exists t: Source, rest: seq<string> ::
      Stuck(p, t, rest) && multiset(Ast.Selectors(t)) + multiset(rest) == multiset(innerSelectors)
    ensures r.Failure? && Distinct(innerSelectors) ==>
      exists t :: GreedyTree(p, t, innerSelectors) && Stuck(p, t, Unjoined(innerSelectors, SetOf(Ast.Selectors(t))))
  {
    var j := PlanJoin(p, innerSelectors);
    if j.Failure? then
      if Distinct(innerSelectors) then PlanJoinFailsWhenStuck(p, innerSelectors); Failure(j.error)
      else Failure(j.error)
    else
      var tree := j.value;
      var r := q.(prepared := true, source := tree, estimatedCost := p.cost(tree),
                  isSortedByIndex := SortableByIndex(q.orderings, |q.registry.selectors|, firstPlan));
      if Distinct(innerSelectors) then PlanJoinFollowsChoose(p, innerSelectors); Success(r) else Success(r)
  }

  /** `prepare` is idempotent. */
  lemma PrepareIsIdempotent(q: Query, innerSelectors: seq<string>, p: Planning,
                            indexes: seq<QueryIndex>, traversalCost: Cost, firstPlan: Option<IndexPlan>)
    requires Prepare(q, innerSelectors, p, indexes, traversalCost, firstPlan).Success?
    ensures var q1 := Prepare(q, innerSelectors, p, indexes, traversalCost, firstPlan).value;
      Prepare(q1, innerSelectors, p, indexes, traversalCost, firstPlan) == Success(q1)
  {
  }

  /** Without a join, the estimated cost `prepare` records is no more than
      any index's cost for the query's limit and offset (given that each
      index's minimum cost bounds its actual cost). */
  lemma PrepareChoosesCheapest(q: Query, innerSelectors: seq<string>, p: Planning,
                               indexes: seq<QueryIndex>, traversalCost: Cost,
                               firstPlan: Option<IndexPlan>, x: QueryIndex)
    requires !q.prepared && |innerSelectors| <= 1
    requires forall y :: y in indexes ==> LessEq(y.minimumCost, IndexCost(y, MaxEntryCount(q.limit, q.offset)))
    requires x in indexes
    ensures LessEq(Prepare(q, innerSelectors, p, indexes, traversalCost, firstPlan).value.estimatedCost,
                   IndexCost(x, MaxEntryCount(q.limit, q.offset)))
  {
    BestSelectorPlanIsOptimal(indexes, q.limit, q.offset, q.traversalEnabled, traversalCost, x);
  }

  // ---------------------------------------------------------------------
  // getRows and getSize

  /** Whether `getRows` sorts in memory: there are orderings (the comparator
      is absent without them) and the index does not deliver them. */
  predicate SortsInMemory(q: Query) {
    !q.isSortedByIndex && q.orderings.Some?
  }

  /** The size bookkeeping of `getRows` once the row iterator has read
      `read` matching rows: recorded only when an in-memory sort forced the
      whole result to be read, and never in explain mode, which returns
      before. */
  function AfterGetRows(q: Query, read: Long): (r: Query)
    requires read >= 0
    ensures r == q.(size := r.size)
    ensures SortsInMemory(q) && !q.explain ==> r.size == Max(0, Min(q.limit, read - q.offset))
    ensures SortsInMemory(q) && !q.explain ==> 0 <= r.size && (q.offset >= 0 ==> r.size <= read)
    ensures !(SortsInMemory(q) && !q.explain) ==> r.size == q.size
  {
    if q.explain || !SortsInMemory(q) then q
    else q.(size := SortedSize(q.limit, q.offset, read))
  }

  /** After a sorted execution over a scan, `getSize` reports the number of
      matching rows the row iterator produced, less the offset, capped by
      the limit. */
  lemma SizeAfterSortedExecution<R>(q: Query, scan: RowSource<R>, sourceSize: Long)
    requires SortsInMemory(q) && !q.explain
    requires |scan.rows| <= LONG_MAX
    ensures |Produced(scan, scan.rows)| <= |scan.rows|
    ensures var read := Drain(scan, Fresh()).1.readCount;
      read == |Produced(scan, scan.rows)|
      && GetSize(AfterGetRows(q, read).size, q.limit, sourceSize)
         == Max(0, Min(q.limit, read - q.offset))
  {
    DrainFromStart(scan);
    ProducedIsShorter(scan, scan.rows);
    var read := Drain(scan, Fresh()).1.readCount;
    assert read == |Produced(scan, scan.rows)| <= |scan.rows| <= LONG_MAX;
    SizeOfSortedRead(q, read, sourceSize);
  }

  /** After a sorted read of `read` rows, `getSize` reports the sorted size. */
  lemma SizeOfSortedRead(q: Query, read: Long, sourceSize: Long)
    requires SortsInMemory(q) && !q.explain && read >= 0
    ensures GetSize(AfterGetRows(q, read).size, q.limit, sourceSize) == Max(0, Min(q.limit, read - q.offset))
  {
    SortedSizeIsKnown(q.limit, q.offset, read, sourceSize);
  }

  lemma {:induction false} ProducedIsShorter<R>(scan: RowSource<R>, rows: seq<R>)
    ensures |Produced(scan, rows)| <= |rows|
  {
    if rows != [] {
      ProducedIsShorter(scan, rows[1..]);
    }
  }
}

=== FILE: result_size.dfy ===
/** The result size: known exactly after an in-memory sort (the sort reads
    every matching row), otherwise delegated to the source. */
module ResultSize {
  import opened Longs

  /** The size recorded after a sorted read of `read` matching rows: ignore
      what lies beyond `limit + offset` (saturated), then skip `offset`
      rows, never below zero. The subtraction is Java `long` arithmetic; the
      ensures shows it never wraps. */
  function SortedSize(limit: Long, offset: Long, read: Long): (size: Long)
    requires read >= 0
    ensures size == Max(0, Min(limit, read - offset))
    ensures offset >= 0 ==> 0 <= size <= read
  {
    var capped := Min(SaturatedAdd(limit, offset), read);
    SubtractionFits(limit, offset, read);
    Max(0, capped - offset)
  }

  /** `capped - offset` stays inside the long range for every input, so the
      subtraction in `getRows` cannot overflow. */
  lemma SubtractionFits(limit: Long, offset: Long, read: Long)
    requires read >= 0
    ensures LONG_MIN <= Min(SaturatedAdd(limit, offset), read) - offset <= LONG_MAX
  {
    var sum := limit + offset;
    if sum > LONG_MAX {
      assert Min(SaturatedAdd(limit, offset), read) == read;
    } else if sum < LONG_MIN {
      assert Min(SaturatedAdd(limit, offset), read) == LONG_MIN;
    } else {
      assert SaturatedAdd(limit, offset) == sum;
    }
  }

  /** With no offset and no limit the known size is the number of rows
      read; a negative offset (which nothing here rejects) can make it
      larger than that. */
  lemma SortedSizeExamples()
    ensures SortedSize(LONG_MAX, 0, 7) == 7
    ensures SortedSize(LONG_MAX, 5, 7) == 2
    ensures SortedSize(3, 5, 7) == 2
    ensures SortedSize(LONG_MAX, -5, 7) == 12
  {
  }

  /** `getSize(precision, max)`: the recorded size when one is known (it is
      -1 otherwise), else the smaller of `limit` and the source's own
      estimate. */
  function GetSize(size: Long, limit: Long, sourceSize: Long): (r: Long)
    ensures size != -1 ==> r == size
    ensures size == -1 ==> r <= limit && r <= sourceSize && (r == limit || r == sourceSize)
  {
    if size != -1 then size else Min(limit, sourceSize)
  }

  /** After a sorted read the size is known: `getSize` returns the sorted
      size and never the -1 "unknown" marker. */
  lemma SortedSizeIsKnown(limit: Long, offset: Long, read: Long, sourceSize: Long)
    requires read >= 0
    ensures SortedSize(limit, offset, read) != -1
    ensures GetSize(SortedSize(limit, offset, read), limit, sourceSize) == SortedSize(limit, offset, read)
  {
  }
}

=== FILE: row_iterator.dfy ===
/** `RowIterator`: the pull-based scan over the prepared source. The source's
    candidate rows are a sequence; the constraint, when present, is an
    `evaluate` test and an `evaluateStop` signal on the current row. */
module RowIterator {
  import opened Wrappers

  /** The row source the iterator drives: the candidate rows and the constraint test. */
  datatype RowSource<!R> = RowSource(
    rows: seq<R>,
    constrained: bool,
    evaluate: R -> bool,
    evaluateStop: R -> bool)

  /** The iterator's fields: the source's cursor position, `started`, the
      sticky `end`, the buffered `current` row, and `rowIndex` (the read
      count). */
  datatype Cursor<R> = Cursor(position: nat, started: bool, end: bool, current: Option<R>, readCount: nat)

  function Fresh<R>(): Cursor<R> {
    Cursor(0, false, false, None, 0)
  }

  /** A row the iterator may return: no constraint, or one it satisfies. */
  predicate Passes<R>(scan: RowSource<R>, r: R) {
    !scan.constrained || scan.evaluate(r)
  }

  /** The iterator's state invariant. */
  ghost predicate Valid<R>(scan: RowSource<R>, it: Cursor<R>) {
    && it.position <= |scan.rows|
    && (it.current.Some? ==> !it.end && it.started && Passes(scan, it.current.value) && it.current.value in scan.rows)
    && (!it.started ==> it.position == 0 && it.readCount == 0)
  }

  /** Reference semantics: the rows the scan produces, in order. A failing
      row whose stop signal is raised ends the scan. */
  function Produced<R>(scan: RowSource<R>, rows: seq<R>): seq<R> {
    if rows == [] then []
    else if Passes(scan, rows[0]) then [rows[0]] + Produced(scan, rows[1..])
    else if scan.constrained && scan.evaluateStop(rows[0]) then []
    else Produced(scan, rows[1..])
  }

  /** The `while (true)` loop of `fetchNext`. */
  function Advance<R>(scan: RowSource<R>, it: Cursor<R>): (r: Cursor<R>)
    requires it.position <= |scan.rows| && it.started && it.current.None? && !it.end
    ensures Valid(scan, r) && r.started && it.position <= r.position
    ensures r.end <==> r.current.None?
    ensures r.readCount == it.readCount + (if r.current.Some? then 1 else 0)
    ensures r.current.Some? ==> r.current.value in scan.rows
    ensures Produced(scan, scan.rows[it.position..])
         == (if r.end then [] else [r.current.value] + Produced(scan, scan.rows[r.position..]))
    decreases |scan.rows| - it.position
  {
    var rows := scan.rows;
    var pos := it.position;
    if pos == |rows| then
      it.(current := None, end := true)
    else
      var row := rows[pos];
      assert rows[pos..][1..] == rows[pos + 1..];
      var next := it.(position := pos + 1);
      if Passes(scan, row) then
        next.(current := Some(row), readCount := it.readCount + 1)
      else if scan.constrained && scan.evaluateStop(row) then
        next.(current := None, end := true)
      else
        Advance(scan, next)
  }

  /** `fetchNext`: nothing once ended; start the source on first use. */
  function FetchNext<R>(scan: RowSource<R>, it: Cursor<R>): (r: Cursor<R>)
    requires Valid(scan, it) && it.current.None?
    ensures Valid(scan, r)
    ensures it.end ==> r == it
    ensures !it.end ==> r.started && (r.end <==> r.current.None?)
    ensures !it.end ==> Pending(scan, r) == Pending(scan, it)
    ensures r.readCount == it.readCount + (if r.current.Some? then 1 else 0)
  {
    if it.end then it else Advance(scan, it.(started := true))
  }

  /** `hasNext`. */
  function HasNext<R>(scan: RowSource<R>, it: Cursor<R>): (r: (Cursor<R>, bool))
    requires Valid(scan, it)
    ensures Valid(scan, r.0)
    ensures it.end ==> r == (it, false)
    ensures r.1 <==> r.0.current.Some?
    ensures it.current.Some? ==> r == (it, true)
  {
    if it.end then (it, false)
    else
      var it1 := if it.current.None? then FetchNext(scan, it) else it;
      (it1, !it1.end)
  }

  /** `next`: the buffered row, fetching one first if needed; null at the
      end. */
  function Next<R>(scan: RowSource<R>, it: Cursor<R>): (r: (Cursor<R>, Option<R>))
    requires Valid(scan, it)
    ensures Valid(scan, r.0) && r.0.current.None?
    ensures it.end ==> r == (it, None)
    ensures r.1.Some? ==> Passes(scan, r.1.value) && r.1.value in scan.rows
    ensures r.0.readCount == it.readCount + (if it.current.None? && r.1.Some? then 1 else 0)
  {
    if it.end then (it, None)
    else
      var it1 := if it.current.None? then FetchNext(scan, it) else it;
      (it1.(current := None), it1.current)
  }

  /** The rows still to come from a valid state. */
  function Pending<R>(scan: RowSource<R>, it: Cursor<R>): seq<R>
    requires Valid(scan, it)
  {
    (if it.current.Some? then [it.current.value] else [])
    + (if it.end then [] else Produced(scan, scan.rows[it.position..]))
  }

  /** A consumer that calls `hasNext` then `next` until `hasNext` is false;
      returns the rows it received and the final state. */
  function Drain<R>(scan: RowSource<R>, it: Cursor<R>): (seq<R>, Cursor<R>)
    requires Valid(scan, it)
    decreases if it.end then 0 else 1, |scan.rows| - it.position, if it.current.Some? then 1 else 0
  {
    var h := HasNext(scan, it);
    if !h.1 then ([], h.0)
    else
      var n := Next(scan, h.0);
      var d := Drain(scan, n.0);
      ([n.1.value] + d.0, d.1)
  }

  /** Draining yields exactly the pending rows, ends in the sticky end state,
      and counts each produced row once. */
  lemma {:induction false} DrainYieldsPending<R>(scan: RowSource<R>, it: Cursor<R>)
    requires Valid(scan, it)
    ensures Drain(scan, it).0 == Pending(scan, it)
    ensures Drain(scan, it).1.end
    ensures Drain(scan, it).1.readCount
         == it.readCount + |Pending(scan, it)| - (if it.current.Some? then 1 else 0)
    decreases if it.end then 0 else 1, |scan.rows| - it.position, if it.current.Some? then 1 else 0
  {
    if it.end {
      assert Drain(scan, it) == ([], it);
    } else if it.current.Some? {
      var it2 := it.(current := None);
      DrainYieldsPending(scan, it2);
      DrainBuffered(scan, it);
    } else {
      var it1 := Advance(scan, it.(started := true));
      if it1.end {
        DrainEndsOnFetch(scan, it);
      } else {
        var it2 := it1.(current := None);
        DrainYieldsPending(scan, it2);
        DrainFetched(scan, it);
      }
    }
  }

  /** One step of `Drain` when a row is already buffered. */
  lemma DrainBuffered<R>(scan: RowSource<R>, it: Cursor<R>)
    requires Valid(scan, it) && it.current.Some?
    ensures Valid(scan, it.(current := None))
    ensures Drain(scan, it).0 == [it.current.value] + Drain(scan, it.(current := None)).0
    ensures Drain(scan, it).1 == Drain(scan, it.(current := None)).1
    ensures Pending(scan, it) == [it.current.value] + Pending(scan, it.(current := None))
  {
  }

  /** One step of `Drain` when fetching finds nothing more. */
  lemma DrainEndsOnFetch<R>(scan: RowSource<R>, it: Cursor<R>)
    requires Valid(scan, it) && it.current.None? && !it.end
    requires Advance(scan, it.(started := true)).end
    ensures Drain(scan, it) == ([], Advance(scan, it.(started := true)))
    ensures Pending(scan, it) == []
  {
  }

  /** One step of `Drain` when fetching finds a row. */
  lemma DrainFetched<R>(scan: RowSource<R>, it: Cursor<R>)
    requires Valid(scan, it) && it.current.None? && !it.end
    requires !Advance(scan, it.(started := true)).end
    ensures var it1 := Advance(scan, it.(started := true));
      && Valid(scan, it1.(current := None))
      && Drain(scan, it).0 == [it1.current.value] + Drain(scan, it1.(current := None)).0
      && Drain(scan, it).1 == Drain(scan, it1.(current := None)).1
      && Pending(scan, it) == [it1.current.value] + Pending(scan, it1.(current := None))
      && it1.readCount == it.readCount + 1
  {
    var it1 := Advance(scan, it.(started := true));
    var h := HasNext(scan, it);
    assert h == (it1, true);
    var n := Next(scan, it1);
    assert n == (it1.(current := None), it1.current);
    assert Drain(scan, it) == ([it1.current.value] + Drain(scan, n.0).0, Drain(scan, n.0).1);
  }

  /** From a fresh iterator: the consumer sees exactly the reference rows,
      and `getReadCount` then equals their number. */
  lemma DrainFromStart<R>(scan: RowSource<R>)
    ensures Drain(scan, Fresh()).0 == Produced(scan, scan.rows)
    ensures Drain(scan, Fresh()).1.readCount == |Produced(scan, scan.rows)|
  {
    assert scan.rows[0..] == scan.rows;
    DrainYieldsPending(scan, Fresh());
  }
}

=== FILE: selectors.dfy ===
/** Selector registration during `init`, and the lookups the rest of the
    engine performs by name: selector index, column index, bind variable
    value, and the per-column "counts toward DISTINCT" mask. */
module Selectors {
  import opened Wrappers
  import opened Ast

  /** `selectorIndexes` together with the `selectors` list. */
  datatype Registry = Registry(indexes: map<string, nat>, selectors: seq<string>)

  const EmptyRegistry: Registry := Registry(map[], [])

  predicate Distinct(s: seq<string>) {
    forall i, j :: 0 <= i < j < |s| ==> s[i] != s[j]
  }

  /** The registry invariant: the map sends every registered name to its
      position in the list, and knows no other name. */
  ghost predicate Dense(reg: Registry) {
    && (forall n :: n in reg.indexes <==> n in reg.selectors)
    && (forall i :: 0 <= i < |reg.selectors| ==> reg.indexes[reg.selectors[i]] == i)
  }

  lemma DenseImpliesDistinct(reg: Registry)
    requires Dense(reg)
    ensures Distinct(reg.selectors)
  {
  }

  /** Appends one new name with the next index. */
  function Add(reg: Registry, name: string): Registry {
    Registry(reg.indexes[name := |reg.selectors|], reg.selectors + [name])
  }

  lemma AddPreservesDense(reg: Registry, name: string)
    requires Dense(reg) && name !in reg.indexes
    ensures Dense(Add(reg, name))
  {
    var next := Add(reg, name);
    forall i | 0 <= i < |next.selectors|
      ensures next.indexes[next.selectors[i]] == i
    {
      if i < |reg.selectors| {
        assert next.selectors[i] == reg.selectors[i] != name;
      }
    }
  }

  /** A duplicate at the head of the remaining names breaks distinctness. */
  lemma HeadDuplicate(reg: Registry, names: seq<string>)
    requires Dense(reg) && names != [] && names[0] in reg.indexes
    ensures !Distinct(reg.selectors + names)
    ensures names[0] in reg.selectors + names[..0] && Distinct(reg.selectors + names[..0])
  {
    DenseImpliesDistinct(reg);
    assert reg.selectors + names[..0] == reg.selectors;
    var j :| 0 <= j < |reg.selectors| && reg.selectors[j] == names[0];
    assert (reg.selectors + names)[j] == (reg.selectors + names)[|reg.selectors|];
  }

  /** A duplicate found later keeps its witness when the head is put back. */
  lemma ShiftWitness(reg: Registry, names: seq<string>, k: nat)
    requires names != [] && k < |names| - 1
    ensures names[1..][..k] == names[1..k + 1]
    ensures Add(reg, names[0]).selectors + names[1..][..k] == reg.selectors + names[..k + 1]
  {
  }

  /** The selector visits of `init`, in visit order: each name gets the next
      dense index; a name seen before raises "Two selectors with the same
      name". */
  function Register(reg: Registry, names: seq<string>): (r: Result<Registry, QueryError>)
    requires Dense(reg)
    ensures r.Success? <==> Distinct(reg.selectors + names)
    ensures r.Success? ==> Dense(r.value) && r.value.selectors == reg.selectors + names
    ensures r.Failure? ==>
      exists k :: 0 <= k < |names| && r.error == DuplicateSelector(names[k])
        && names[k] in reg.selectors + names[..k] && Distinct(reg.selectors + names[..k])
    decreases |names|
  {
    if names == [] then
      assert reg.selectors + names == reg.selectors;
      DenseImpliesDistinct(reg);
      Success(reg)
    else if names[0] in reg.indexes then
      HeadDuplicate(reg, names);
      Failure(DuplicateSelector(names[0]))
    else
      AddPreservesDense(reg, names[0]);
      var r := Register(Add(reg, names[0]), names[1..]);
      assert reg.selectors + names == Add(reg, names[0]).selectors + names[1..];
      if r.Failure? then
        var k :| 0 <= k < |names[1..]| && r.error == DuplicateSelector(names[1..][k])
          && names[1..][k] in Add(reg, names[0]).selectors + names[1..][..k]
          && Distinct(Add(reg, names[0]).selectors + names[1..][..k]);
        ShiftWitness(reg, names, k);
        assert names[k + 1] == names[1..][k];
        r
      else
        r
  }

  /** `getSelectorIndex`: the registered index, or "Unknown selector". */
  function GetSelectorIndex(reg: Registry, name: string): (r: Result<nat, QueryError>)
    requires Dense(reg)
    ensures r.Success? <==> name in reg.selectors
    ensures r.Success? ==> r.value < |reg.selectors| && reg.selectors[r.value] == name
    ensures r.Failure? ==> r.error == UnknownSelector(name)
  {
    if name in reg.indexes then Success(reg.indexes[name]) else Failure(UnknownSelector(name))
  }

  /** Registering a selector list and looking a name up again gives back its
      position in the list; every other name is unknown. */
  lemma RegisterThenLookup(names: seq<string>, i: nat, other: string)
    requires Distinct(names)
    requires i < |names|
    requires other !in names
    ensures Register(EmptyRegistry, names).Success?
    ensures GetSelectorIndex(Register(EmptyRegistry, names).value, names[i]) == Success(i)
    ensures GetSelectorIndex(Register(EmptyRegistry, names).value, other) == Failure(UnknownSelector(other))
  {
    assert EmptyRegistry.selectors + names == names;
    var reg := Register(EmptyRegistry, names).value;
    DenseImpliesDistinct(reg);
  }

  /** A column matches a requested name when its own name is present and
      equal (`cn != null && cn.equals(columnName)`). */
  predicate NamedAs(c: Column, columnName: Option<string>) {
    c.columnName.Some? && columnName == c.columnName
  }

  /** `getColumnIndex`: the first column with the given name, or -1. */
  method GetColumnIndex(columns: seq<Column>, columnName: Option<string>) returns (r: int)
    ensures -1 <= r < |columns|
    ensures r >= 0 ==> NamedAs(columns[r], columnName)
    ensures r >= 0 ==> forall j :: 0 <= j < r ==> !NamedAs(columns[j], columnName)
    ensures r == -1 <==> forall j :: 0 <= j < |columns| ==> !NamedAs(columns[j], columnName)
  {
    var i := 0;
    while i < |columns|
      invariant 0 <= i <= |columns|
      invariant forall j :: 0 <= j < i ==> !NamedAs(columns[j], columnName)
    {
      var cn := columns[i].columnName;
      if cn.Some? && Some(cn.value) == columnName {
        return i;
      }
      i := i + 1;
    }
    return -1;
  }

  /** `distinctColumns`: every column counts toward DISTINCT except one
      whose property is the score pseudo-property (a column without a
      property name counts). */
  function DistinctColumns(columns: seq<Column>): (r: seq<bool>)
    ensures |r| == |columns|
    ensures forall i :: 0 <= i < |columns| ==> (r[i] <==> columns[i].propertyName != Some(JCR_SCORE))
  {
    if columns == [] then []
    else [columns[0].propertyName != Some(JCR_SCORE)] + DistinctColumns(columns[1..])
  }

  /** Bind variables: a referenced name with no value yet maps to None. */
  type BindVariables = map<string, Option<PropertyValue>>

  /** The bind-variable visits of `init`: each referenced name is put with a
      null value, overwriting any value bound earlier. */
  function DeclareBindVariables(m: BindVariables, names: seq<string>): (r: BindVariables)
    ensures forall n :: n in r <==> n in m || n in names
    ensures forall n :: n in names ==> r[n] == None
    ensures forall n :: n in m && n !in names ==> r[n] == m[n]
    decreases |names|
  {
    if names == [] then m else DeclareBindVariables(m[names[0] := None], names[1..])
  }

  /** `bindValue`: put the value under the name (a null value unsets it). */
  function BindValue(m: BindVariables, name: string, value: Option<PropertyValue>): (r: BindVariables)
    ensures name in r && r[name] == value
    ensures r.Keys == m.Keys + {name}
    ensures forall n :: n in m && n != name ==> r[n] == m[n]
  {
    m[name := value]
  }

  /** `getBindVariableValue`: the bound value, or "Bind variable value not
      set" when the name is unknown or still null. */
  function GetBindVariableValue(m: BindVariables, name: string): (r: Result<PropertyValue, QueryError>)
    ensures r.Success? <==> name in m && m[name].Some?
    ensures r.Success? ==> m[name] == Some(r.value)
    ensures r.Failure? ==> r.error == UnsetBindVariable(name)
  {
    if name in m && m[name].Some? then Success(m[name].value) else Failure(UnsetBindVariable(name))
  }

  /** Binding then reading gives the bound value back; binding one name
      leaves every other name as it was; declaring a name (as `init` does)
      makes reading it fail until a value is bound. */
  lemma BindThenGet(m: BindVariables, name: string, other: string, v: PropertyValue, names: seq<string>)
    requires other != name
    requires name in names
    ensures GetBindVariableValue(BindValue(m, name, Some(v)), name) == Success(v)
    ensures GetBindVariableValue(BindValue(m, name, Some(v)), other) == GetBindVariableValue(m, other)
    ensures GetBindVariableValue(BindValue(m, name, None), name) == Failure(UnsetBindVariable(name))
    ensures GetBindVariableValue(DeclareBindVariables(m, names), name) == Failure(UnsetBindVariable(name))
  {
  }
}

=== FILE: sort_pushdown.dfy ===
/** `canSortByIndex`: whether the plan chosen for the only selector already
    delivers the ORDER BY order, so that no in-memory sort is needed. */
module SortPushDown {
  import opened Wrappers
  import opened Ast
  import opened IndexSelection

  /** One ORDER BY entry is delivered by one sort order entry: a plain
      property value of the same name, in the same direction. */
  predicate Delivers(e: OrderEntry, o: Ordering) {
    && o.operand.PropertyValue?
    && o.operand.propertyName == e.propertyName
    && o.descending == (e.order == Descending)
  }

  /** The structural match, stated independently of the loop below. */
  predicate SortableByIndex(orderings: Option<seq<Ordering>>, selectorCount: nat, plan: Option<IndexPlan>) {
    && orderings.Some?
    && selectorCount == 1
    && plan.Some?
    && plan.value.sortOrder.Some?
    && |plan.value.sortOrder.value| == |orderings.value|
    && forall i :: 0 <= i < |orderings.value| ==> Delivers(plan.value.sortOrder.value[i], orderings.value[i])
  }

  /** The loop of `canSortByIndex`: start from "yes" once the lengths agree, and
      break with "no" at the first entry that is a computed operand, another
      property, or the other direction. */
  method CanSortByIndex(orderings: Option<seq<Ordering>>, selectorCount: nat, plan: Option<IndexPlan>)
    returns (r: bool)
    ensures r <==> SortableByIndex(orderings, selectorCount, plan)
  {
    r := false;
    if orderings.Some? && selectorCount == 1 && plan.Some? {
      var list := plan.value.sortOrder;
      var os := orderings.value;
      if list.Some? && |list.value| == |os| {
        r := true;
        var i := 0;
        while i < |list.value|
          invariant 0 <= i <= |list.value|
          invariant r
          invariant forall j :: 0 <= j < i ==> Delivers(list.value[j], os[j])
        {
          var e := list.value[i];
          var o := os[i];
          if !o.operand.PropertyValue? {
            r := false;
            break;
          }
          if o.operand.propertyName != e.propertyName {
            r := false;
            break;
          }
          if o.descending != (e.order == Descending) {
            r := false;
            break;
          }
          i := i + 1;
        }
      }
    }
  }

  /** An advanced index that answers the requested sort order with a plan
      delivering exactly that order makes the query sorted by index, as long
      as every ORDER BY entry is a property of the single selector. */
  lemma RequestedOrderIsSortable(orderings: seq<Ordering>, selector: string, plan: IndexPlan)
    requires |orderings| > 0
    requires forall i :: 0 <= i < |orderings| ==> OnSelector(orderings[i], selector)
    requires plan.sortOrder == RequestedSortOrder(Some(orderings), selector)
    ensures SortableByIndex(Some(orderings), 1, Some(plan))
  {
  }

  /** Ordering by a computed operand is never pushed down, whatever the plan. */
  lemma ComputedOrderingNeedsSort(orderings: seq<Ordering>, i: nat, selectorCount: nat, plan: Option<IndexPlan>)
    requires i < |orderings| && orderings[i].operand.ComputedOperand?
    ensures !SortableByIndex(Some(orderings), selectorCount, plan)
  {
  }
}

=== FILE: union_rewrite.dfy ===
/** Helpers of the OR-to-UNION rewrite: the cost-overhead heuristic that
    prefers a union for an OR mixing full-text and plain conditions, and the
    textual splice that gives each union branch its own WHERE clause. */
module UnionRewrite {
  import opened Wrappers
  import opened Ast

  /** Java's `Double.MAX_VALUE`, exactly. */
  const DOUBLE_MAX: real := 179769313486231570814527423731704356798070567525844996598917476803157260780028538760589558632766878171540458953514382464234321326889464182768467546703537516986049910576551282076245490090389328944075868508455133942304583236903222948165808559332123348274797826204144723168738177180919299881250404026184124858368.0

  /** Reference definition: an OR whose direct operands include both a
      full-text search and something else, reachable from the root through
      AND nodes only (the heuristic does not look inside OR operands). */
  predicate MixedOr(c: Constraint) {
    match c
    case Or(cs) =>
      (exists j :: 0 <= j < |cs| && cs[j].FullTextSearch?)
      && (exists j :: 0 <= j < |cs| && !cs[j].FullTextSearch?)
    case And(cs) => exists j :: 0 <= j < |cs| && MixedOr(cs[j])
    case FullTextSearch(_, _) => false
    case Condition(_) => false
  }

  /** `oak2660CostOverhead`: `Double.MAX_VALUE` for a mixed OR, the sum of
      the operands' overheads for an AND (stopping once it reaches
      `Double.MAX_VALUE`), 0 for a leaf and for any other OR. */
  function CostOverhead(c: Constraint): (r: real)
    ensures r == 0.0 || r == DOUBLE_MAX
    ensures r == DOUBLE_MAX <==> MixedOr(c)
    decreases c, 1, 0
  {
    match c
    case Or(cs) => if OrMixes(cs, 0, false, false) then DOUBLE_MAX else 0.0
    case And(cs) => SumOverhead(c, 0, 0.0)
    case FullTextSearch(_, _) => 0.0
    case Condition(_) => 0.0
  }

  /** The OR loop: remember whether a full-text operand and a plain operand
      were seen, and answer as soon as both were. */
  function OrMixes(cs: seq<Constraint>, i: nat, fulltext: bool, plain: bool): (r: bool)
    requires i <= |cs|
    requires !(fulltext && plain)
    ensures r <==> ((fulltext || exists j :: i <= j < |cs| && cs[j].FullTextSearch?)
                 && (plain || exists j :: i <= j < |cs| && !cs[j].FullTextSearch?))
    decreases |cs| - i
  {
    if i == |cs| then false
    else
      var fulltext' := fulltext || cs[i].FullTextSearch?;
      var plain' := plain || !cs[i].FullTextSearch?;
      if fulltext' && plain' then true
      else OrMixes(cs, i + 1, fulltext', plain')
  }

  /** The AND loop: add up the operands' overheads, returning as soon as the
      running sum equals `Double.MAX_VALUE`. Each operand contributes 0 or
      `Double.MAX_VALUE`, so the running sum is 0 until it stops. */
  function SumOverhead(c: Constraint, i: nat, cost: real): (r: real)
    requires c.And? && i <= |c.operands| && cost == 0.0
    ensures r == 0.0 || r == DOUBLE_MAX
    ensures r == DOUBLE_MAX <==> exists j :: i <= j < |c.operands| && MixedOr(c.operands[j])
    decreases c, 0, |c.operands| - i
  {
    if i == |c.operands| then cost
    else
      var cost' := cost + CostOverhead(c.operands[i]);
      if cost' == DOUBLE_MAX then cost'
      else SumOverhead(c, i + 1, cost')
  }

  // ---------------------------------------------------------------------
  // Recomposing the statement of a union branch

  const WHERE: string := " WHERE "
  const ORDER_BY: string := " ORDER BY "

  /** `toUpperCase` on ASCII letters (other characters are kept). */
  function UpperChar(ch: char): char {
    if 'a' <= ch <= 'z' then (ch as int - 32) as char else ch
  }

  function Upper(s: string): (r: string)
    ensures |r| == |s|
    ensures forall i :: 0 <= i < |s| ==> r[i] == UpperChar(s[i])
  {
    seq(|s|, i requires 0 <= i < |s| => UpperChar(s[i]))
  }

  lemma UpperSlice(s: string, a: nat, b: nat)
    requires a <= b <= |s|
    ensures Upper(s)[a..b] == Upper(s[a..b])
  {
  }

  /** `pat` occurs in `u` at position `i`. */
  predicate Occurs(u: string, pat: string, i: nat) {
    i + |pat| <= |u| && u[i..i + |pat|] == pat
  }

  /** `ch` matches the pattern character `pc` when case is ignored on
      ASCII letters. */
  predicate SameIgnoringCase(ch: char, pc: char) {
    ch == pc || ('A' <= pc <= 'Z' && ch as int == pc as int + 32)
  }

  /** Searching the upper-cased statement for a pattern with no lower-case
      letter is a case-insensitive search of the statement itself: each
      pattern letter matches itself or its lower-case form, every other
      character only itself. */
  lemma UpperOccurs(s: string, pat: string, j: nat)
    requires forall k :: 0 <= k < |pat| ==> !('a' <= pat[k] <= 'z')
    ensures Occurs(Upper(s), pat, j) <==>
      j + |pat| <= |s| && forall k :: 0 <= k < |pat| ==> SameIgnoringCase(s[j + k], pat[k])
  {
    if j + |pat| <= |s| {
      var u := Upper(s)[j..j + |pat|];
      forall k | 0 <= k < |pat| ensures u[k] == pat[k] <==> SameIgnoringCase(s[j + k], pat[k]) {
        assert u[k] == UpperChar(s[j + k]);
      }
      if forall k :: 0 <= k < |pat| ==> SameIgnoringCase(s[j + k], pat[k]) {
        assert u == pat;
      }
    }
  }

  /** `indexOf`: the first occurrence at or after `i`, or -1. */
  function IndexOf(u: string, pat: string, i: nat): (r: int)
    requires i <= |u|
    ensures r == -1 || (i <= r && Occurs(u, pat, r))
    ensures r >= 0 ==> forall j :: i <= j < r ==> !Occurs(u, pat, j)
    ensures r == -1 ==> forall j :: i <= j <= |u| ==> !Occurs(u, pat, j)
    decreases |u| - i
  {
    if Occurs(u, pat, i) then i
    else if i == |u| then -1
    else IndexOf(u, pat, i + 1)
  }

  lemma IndexOfFirst(u: string, pat: string, k: nat)
    requires Occurs(u, pat, k)
    requires forall j :: 0 <= j < k ==> !Occurs(u, pat, j)
    ensures IndexOf(u, pat, 0) == k
  {
  }

  /** `recomposeStatement`: without a constraint, the statement itself;
      otherwise everything up to and including the first " WHERE " (found
      case-insensitively), the new constraint's text, and everything from
      the first " ORDER BY " on, if there is one. When " WHERE " is missing
      Java's `indexOf` yields -1, so the first six characters are kept,
      and a statement shorter than that makes `substring` throw. */
  function RecomposeStatement(original: string, constraintText: Option<string>): (r: Result<string, QueryError>)
    ensures constraintText.None? ==> r == Success(original)
    ensures r.Failure? <==>
      constraintText.Some? && |original| < 6 && forall j :: 0 <= j <= |original| ==> !Occurs(Upper(original), WHERE, j)
    ensures r.Failure? ==> r.error == StatementIndexOutOfBounds
    ensures r.Success? && constraintText.Some? ==> |r.value| >= |constraintText.value|
  {
    if constraintText.None? then Success(original)
    else
      var u := Upper(original);
      var end := IndexOf(u, WHERE, 0) + |WHERE|;
      if end > |original| then Failure(StatementIndexOutOfBounds)
      else
        var orderBy := IndexOf(u, ORDER_BY, 0);
        var tail := if orderBy > -1 then original[orderBy..] else "";
        Success(original[..end] + constraintText.value + tail)
  }

  /** The intended use: a statement `pre WHERE cond tail`, with `tail` empty
      or starting with ORDER BY, gets its condition replaced and keeps the
      rest verbatim, whatever the keyword case. */
  lemma RecomposeReplacesWhereClause(pre: string, kw: string, cond: string, tail: string, text: string)
    requires |kw| == |WHERE| && Upper(kw) == WHERE
    requires forall j :: 0 <= j < |pre| ==> !Occurs(Upper(pre + kw + cond + tail), WHERE, j)
    requires forall j :: 0 <= j < |pre + kw + cond| ==> !Occurs(Upper(pre + kw + cond + tail), ORDER_BY, j)
    requires tail == [] || Occurs(Upper(tail), ORDER_BY, 0)
    ensures RecomposeStatement(pre + kw + cond + tail, Some(text)) == Success(pre + kw + text + tail)
  {
    var s := pre + kw + cond + tail;
    WhereFoundAfterPrefix(s, pre, kw);
    assert s[..|pre| + |WHERE|] == pre + kw;
    OrderByFoundAfterCondition(s, pre + kw + cond, tail);
  }

  /** The first " WHERE " of a statement starting with `pre + kw` is the keyword `kw`. */
  lemma WhereFoundAfterPrefix(s: string, pre: string, kw: string)
    requires |kw| == |WHERE| && Upper(kw) == WHERE
    requires |pre + kw| <= |s| && s[..|pre + kw|] == pre + kw
    requires forall j :: 0 <= j < |pre| ==> !Occurs(Upper(s), WHERE, j)
    ensures IndexOf(Upper(s), WHERE, 0) == |pre|
  {
    UpperSlice(s, |pre|, |pre| + |kw|);
    assert s[|pre|..|pre| + |kw|] == kw;
    IndexOfFirst(Upper(s), WHERE, |pre|);
  }

  /** The first " ORDER BY " of `s == head + tail` is where `tail` starts,
      or there is none when `tail` is empty. */
  lemma OrderByFoundAfterCondition(s: string, head: string, tail: string)
    requires s == head + tail
    requires forall j :: 0 <= j < |head| ==> !Occurs(Upper(s), ORDER_BY, j)
    requires tail == [] || Occurs(Upper(tail), ORDER_BY, 0)
    ensures tail == [] ==> IndexOf(Upper(s), ORDER_BY, 0) == -1
    ensures tail != [] ==> IndexOf(Upper(s), ORDER_BY, 0) == |head| && s[|head|..] == tail
  {
    var u := Upper(s);
    var p := |head|;
    if tail == [] {
      assert s == head;
      assert IndexOf(u, ORDER_BY, 0) == -1;
    } else {
      UpperSlice(s, p, p + |ORDER_BY|);
      assert s[p..p + |ORDER_BY|] == tail[..|ORDER_BY|];
      UpperSlice(tail, 0, |ORDER_BY|);
      IndexOfFirst(u, ORDER_BY, p);
      assert s[p..] == tail;
    }
  }

  /** The edge case of `recomposeStatement`: with no " WHERE " in a statement of six
      or more characters, the first six characters are kept in front of the
      new condition. */
  lemma RecomposeWithoutWhere(original: string, text: string)
    requires |original| >= 6
    requires forall j :: 0 <= j <= |original| ==> !Occurs(Upper(original), WHERE, j)
    requires forall j :: 0 <= j <= |original| ==> !Occurs(Upper(original), ORDER_BY, j)
    ensures RecomposeStatement(original, Some(text)) == Success(original[..6] + text)
  {
    var u := Upper(original);
    assert IndexOf(u, WHERE, 0) == -1;
    assert IndexOf(u, ORDER_BY, 0) == -1;
    assert |WHERE| == 7;
    assert original[..6] + text + "" == original[..6] + text;
  }
}

=== FILE: wrappers.dfy ===
/** Failure-compatible wrappers used across the model: `Option` stands for a
    Java reference that may be null, `Result` for a call that may throw. */
module Wrappers {

  datatype Option<+T> = None | Some(value: T) {
    predicate IsFailure() {
      None?
    }

    function PropagateFailure<U>(): Option<U>
      requires None?
    {
      None
    }

    function Extract(): T
      requires Some?
    {
      value
    }
  }

  datatype Result<+R, +E> = Success(value: R) | Failure(error: E) {
    predicate IsFailure() {
      Failure?
    }

    function PropagateFailure<U>(): Result<U, E>
      requires Failure?
    {
      Failure(error)
    }

    function Extract(): R
      requires Success?
    {
      value
    }
  }
}
